=== FILE: README.md ===
# membed fixed-block allocator in Dafny

This project models membed, a fixed-block allocator (`mem.c`, `inc/mem.h`). The caller supplies one buffer, which the allocator splits into two parts:

- a table of `blocks_num` four-byte slot records: a 24-bit allocation id and an 8-bit run length `count`;
- `blocks_num` blocks of `blocks_length` bytes each.

An allocation is a run of consecutive blocks. Its first slot holds the run length, and every slot of the run carries the run's id. A slot is free when all four of its bytes are zero.

The allocator finds a run in two ways:

- a 16-entry, one-shot hint cache indexed by run length;
- a circular first-fit scan of the table, which records the start of each too-short free run it passes in the cache.

## How the model is organised

| module | file | contents |
|---|---|---|
| `MemLayout` | `mem_layout.dfy` | constants, the slot record, the id encoding, the size macros |
| `SlotTable` | `slot_table.dfy` | the table as `seq<Slot>`, its well-formedness invariant, the commit and release writes |
| `HintCache` | `hint_cache.dfy` | the seeded hints, taking a hint, the scan start |
| `FreeRunSearch` | `free_run_search.dfy` | the scan: a recursive definition `ScanFrom`, a method `FindFreeSlot` with the nested loops of the code, and a first-fit reference `CircularFirstFit` proved equal to both |
| `Allocator` | `allocator.dfy` | the context `Heap`, create / alloc / free / realloc / the size queries, and the invariant `Valid` |
| `Scenarios` | `scenarios.dfy` | concrete runs on a heap of four 16-byte blocks |
| `AsWritten` | `as_written.dfy` | the defects of the code as written, each with the input that shows it |

Representation choices:

- Addresses are numbers. Block `i` lives at `start + i * blockLength`, where `start` stands for `heaps_start_ptr`.
- The heap is an immutable datatype, and every operation returns a new heap.
- Block contents appear only in realloc. They are passed in and returned as a byte sequence.

`Valid` is the heap invariant. It says three things:

- the table is well formed: every live run lies inside the table, its head holds its length and a nonzero id, and its other slots hold count 0 and the same id;
- every occupied slot belongs to exactly one run;
- `freeSlotsNum` is the number of free slots.

Create, alloc, free and realloc each keep `Valid`. The invariant says nothing about the hint cache, because alloc checks a hint before it uses it.

The code has several defects that break this invariant (see "Findings"). The model corrects them by checking and falling back, not by adding preconditions:

- a hint is used only when its whole window is inside the table and free; otherwise the scan runs;
- a free run ends at the last block, so no run wraps around to block 0; when block 0 is occupied, the run is recorded as a hint, as the code records it on inspecting block 0;
- the scan start taken from hint 0 is range-checked;
- free and heap-size accept block indices `0 <= i < blocksNum`;
- alloc refuses runs longer than 255 blocks;
- realloc checks the old address first, copies `min(old, new)` bytes and returns the new address.

On a fresh heap of four 16-byte blocks, one might expect a 20-byte request to get block 0. The code serves it from the seeded hint of class 2, which is block 2 (mem.c:117-119, 144-147). The model follows the code (`Scenarios.FreshTwoBlockRequest`).

## Model

| member | source | states |
|---|---|---|
| MemLayout.IdBytesRoundTrip | inc/mem.h:39-42 | storing an id as its three bytes, low byte first, and reading them back gives the id modulo 2^24 |
| MemLayout.SetSlotId | inc/mem.h:40-42 | writing an id keeps the count byte, and reading it back gives the id modulo 2^24 (only the low 24 bits survive) |
| MemLayout.SlotIdRoundTrip | inc/mem.h:39-42 | every id below 2^24 is read back unchanged, and the count byte is kept |
| MemLayout.FreeIffIdAndCountZero | inc/mem.h:43 | a slot is free exactly when its id is 0 and its count is 0, so an interior run slot with a nonzero id is occupied |
| MemLayout.CalcBlocks | inc/mem.h:37 | the block count covers the request and one block fewer would not (ceil(size / blockSize)) |
| MemLayout.CalcBlocksIsLeast | inc/mem.h:37 | every k with k * blockSize >= size is at least the block count |
| MemLayout.CalcBuffSize | inc/mem.h:35 | the buffer holds, per block, one 4-byte slot record and one block: blocks * (4 + blockSize) bytes |
| MemLayout.CalcActualSize | inc/mem.h:38 | the rounded size is a multiple of the block size, at least the request, and less than the request plus one block |
| SlotTable.CountFree | mem.c:111 | the free-slot count never exceeds the table length |
| SlotTable.Commit | mem.c:158-164 | the head gets the run length, every slot of the window gets the id, and slots outside the window are unchanged |
| SlotTable.Release | mem.c:183-187 | exactly the `count` slots from the head become free, and every other slot is unchanged |
| SlotTable.CommitKeepsWellFormed | mem.c:154-169 | tagging a free window keeps the table well formed and lowers the free count by the run length |
| SlotTable.ReleaseKeepsWellFormed | mem.c:183-188 | zeroing the run at any index keeps the table well formed; the run fits in the table and the free count rises by its length |
| HintCache.SeedHints | mem.c:116-119 | the seeded cache has 16 entries, each entry k holding the seed 0, 1, k + seed(k-1) - 1 |
| HintCache.SeedClosedForm | mem.c:116-119 | the seed of class k >= 1 is 1 + k(k-1)/2 |
| HintCache.SeedRunsDisjoint | mem.c:116-119 | the seeded runs [0,1), [seed(k), seed(k)+k) are consecutive and pairwise disjoint |
| HintCache.SeedsFitIff | mem.c:116-119 | all seeded runs of classes 1..15 fit in n blocks exactly when n >= 121 |
| HintCache.TakeHint | mem.c:139-148 | a candidate exists exactly when an eligible entry is assigned; a one-block request prefers entry 0 over entry 1; the entry used is reset to unassigned; nothing changes without a candidate |
| HintCache.ScanStart | mem.c:47-50 | the scan starts inside the table: at hint 0 when it is assigned and inside the table, and at block 0 when it is unassigned or out of range |
| FreeRunSearch.ScanFrom | mem.c:51-84 | one inspection of the scan loops, ending a free run at the last block and recording it when block 0 is occupied; it keeps the hint cache at 16 entries and terminates within blocksNum inspections, and Scan states what it computes |
| FreeRunSearch.FirstFit | mem.c:64-72 | reference search: a window it returns is free and lies in [lo, hi) |
| FreeRunSearch.FirstFitIsFirst | mem.c:64-72 | no free window in [lo, hi) starts before the one the reference search returns, and None means there is none |
| FreeRunSearch.CircularFirstFit | mem.c:41-88 | a window found is free, inside the table and does not straddle the start; None means every free window straddles the start |
| FreeRunSearch.RunBeforeIsRun | mem.c:64-77 | the run length carried into a slot: that many slots before it are free, none of them before the pass start, and the slot before them is occupied or the pass start |
| FreeRunSearch.RecordedUntouched | mem.c:78-81 | a hint entry that no slot of the passed range records keeps its value |
| FreeRunSearch.RecordedLast | mem.c:78-81 | a hint entry holds the run recorded by the last slot of the passed range that records it |
| FreeRunSearch.RecordedLastWins | mem.c:78-81 | after the scan passes a range of slots, hint entry k holds the start of the last free run of length k that ended at an occupied slot in the range; an entry with no such run keeps its value |
| FreeRunSearch.Scan | mem.c:41-88 | the scan returns exactly the circular first fit from its start. The hints it leaves are those of every run it passed before stopping, first in [start, n) and then in [0, start): each occupied slot writes the start of the free run before it into the entry of that run's length 1..15, the last write winning. A run that reaches the table end is recorded when block 0 is occupied, as the code records it on inspecting block 0. Every written entry is such a run |
| FreeRunSearch.FindFreeSlot | mem.c:41-88 | the nested loops of the scan compute the same block and hints as the recursive definition, the same block as the first-fit reference, and the hints of the runs they pass |
| FreeRunSearch.WalkTable | mem.c:51-84 | the skip loop and the run-counting loop, with their early returns, end in the same block and hints as the recursive scan |
| Allocator.ValidIndex | mem.c:94 | the corrected index test accepts exactly the addresses inside the storage area, [start, start + blocksNum * blockLength) |
| Allocator.AddrRoundTrip | mem.c:170 | block address and block index are inverse, addresses are block-aligned, and every block of the table has a valid address inside the storage area |
| Allocator.Create | mem.c:101-122 | a fresh heap is valid and all free, holds blocksNum free blocks and id 1, starts its storage 4 * blocksNum bytes in, fills exactly MEM_CALC_BUFF_SIZE bytes, reports blockSize * blocksNum free bytes and holds the seeded hints |
| Allocator.NextSlotId | mem.c:165-167 | the next id stays in [1, MEM_MAX_SLOT_ID), never becomes the unused id 0, and counts up modulo 2^24 - 1 |
| Allocator.ChooseRun | mem.c:138-153 | a chosen block always starts a free window; a request fails only when every free window straddles the scan start, which the scan sees as two runs |
| Allocator.ChooseRunChoice | mem.c:139-149 | a usable hint is chosen, and exactly its entry is reset to unassigned; otherwise the choice is the circular first fit from the scan start, and the hints are those the scan records for the runs it passes |
| Allocator.Alloc | mem.c:124-171 | refuses without any change a request above the free count or above 255 blocks; on failure the table, count and id are unchanged; on success the window was free, the head holds the length, the run carries the current id, nothing else changes, the free count drops by the length, the id advances, and the address is start + index * blockLength |
| Allocator.Free | mem.c:173-189 | an address outside the table changes nothing; otherwise exactly the run's slots become free, the free count rises by its length, the hint of its class records the index, and no other hint changes |
| Allocator.GetHeapSize | mem.c:90-99 | a nonzero size means a valid index whose slot heads a run |
| Allocator.HeapSizeIsLiveRun | mem.c:90-99 | on a valid heap a nonzero size is count * blockLength for a run of occupied blocks inside the table |
| Allocator.HeapSizeOfIndex | mem.c:90-99 | on a valid heap every address inside the storage area reports count * blockLength of the slot it falls in, so it is nonzero exactly when that slot heads a run |
| Allocator.GetFreeSize | mem.c:202-205 | on a valid heap the free size is the number of free slots times the block length |
| Allocator.Realloc | mem.c:191-200 | an address that heads no run is refused with nothing changed; realloc succeeds exactly when the address heads a run and alloc of the new size succeeds, and then returns the address alloc gives; on failure the data, table and free count are unchanged |
| Allocator.CopyWithin | mem.c:198 | the target range receives the source bytes, and every other byte is unchanged |
| Allocator.ReallocCopies | mem.c:198 | a successful realloc carries the first min(old, new) bytes of the old run to the new run, in bounds, and leaves every other byte alone |
| Allocator.ReallocMovesRun | mem.c:193-199 | after a successful realloc the heap is valid, the new run holds the rounded-up new size, every block of the old run is free, and the free count changes by old minus new blocks |
| Allocator.AllocKeepsValid | mem.c:124-171 | alloc keeps the heap invariant |
| Allocator.FreeKeepsValid | mem.c:173-189 | free keeps the heap invariant for any address |
| Allocator.ReallocKeepsValid | mem.c:191-200 | realloc keeps the heap invariant |
| Allocator.AllocIsDisjointFromLiveRuns | mem.c:154-170 | a new run overlaps no live run, is block-aligned, and ends inside the storage area |
| Allocator.AllocFreeRoundTrip | mem.c:173-188 | freeing the address alloc returned restores the table, the free count and the free size, block 0 included |
| Allocator.AllocFreeAlloc | mem.c:124-188 | after freeing the address alloc returned, the same request succeeds again |
| Allocator.AllocSucceedsIff | mem.c:130-153 | alloc succeeds exactly when the request is within the free count and 255 blocks, and either the hint is usable or some free window does not straddle the scan start |
| Allocator.AllocSucceedsOnWindow | mem.c:130-153 | a request that passes the admission checks and fits a free window the scan can reach is served |
| Allocator.FreeOldRun | mem.c:199 | freeing the old run after the new one was committed keeps the heap valid and the new run's size, frees every old block, and moves the free count by old minus new blocks |
| Allocator.AllocThenHeapSize | mem.c:90-99 | the heap size of a fresh allocation is its request rounded up to whole blocks |
| Allocator.AllocLowersFreeSize | mem.c:169 | a successful alloc lowers the free size by the rounded-up request |
| Allocator.AllocAdmission | mem.c:130-133 | a request of more bytes than are free fails and changes nothing |
| Scenarios.FreshTwoBlockRequest | mem.c:144-147 | on a fresh 4 x 16-byte heap a 20-byte request gets block 2, leaving 32 free bytes, and freeing it restores 64 |
| Scenarios.FreshThreeBlockRequest | mem.c:139-149 | on the same heap a 48-byte request rejects the out-of-range hint 4 and gets block 0 |
| Scenarios.FirstTwoSingles | mem.c:139-147 | on the fresh heap the first two 16-byte requests get blocks 0 and 1 from hints 0 and 1, leaving both entries unassigned and blocks 2 and 3 free |
| Scenarios.LastTwoSinglesThenFull | mem.c:124-171 | from that state the next two 16-byte requests are scanned to blocks 2 and 3, and a fifth fails with the heap unchanged |
| Scenarios.StraddledWindowMissed | mem.c:47-84 | after a 16-byte alloc on the fresh heap and a free of the free block 2, a 48-byte request fails although blocks 1..3 are free |
| AsWritten.ChooseRunAsWritten | mem.c:139-149 | as written, an eligible hint is returned whatever its window; when the hinted window is free it agrees with the corrected choice |
| AsWritten.SeededHintPastTheEnd | mem.c:139-148 | as written, a three-block request on four free blocks is given block 4; the corrected choice gives block 0 |
| AsWritten.ScanAsWritten | mem.c:47-84 | as written, a scan whose hint 0 lies inside the table starts where the corrected scan starts; a hint 0 at or past blocksNum makes the first inspection read storage bytes as a slot record (`AsWritten.RecordPastTable`, mem.c:108-110), and the scan is undefined exactly when that record lies past the buffer |
| AsWritten.RecordPastTable | mem.c:108-110 | the record at index i >= blocksNum is the four storage bytes at offset 4(i - blocksNum): it exists exactly when they lie in the buffer, its count is the fourth byte, and it is free exactly when all four bytes are zero |
| AsWritten.StartPastTheTableAsWritten | mem.c:47-53 | when block 0's first four bytes are zero, the as-written free of the address of block blocksNum stores blocksNum as hint 0 and changes nothing else; a two-block request then scans from there, reads those bytes as a free slot and is given block blocksNum, past the table; the corrected start is block 0, the corrected choice never returns blocksNum, and the corrected free changes nothing |
| AsWritten.PastRecordCountAsWritten | mem.c:183-188 | when block 0's fourth byte c is nonzero, the as-written free of the address of block blocksNum leaves the table alone but adds c to the free count, so the heap is no longer valid; it writes hint c (c < 16) and zeroes the first 4c storage bytes; the corrected free changes nothing |
| AsWritten.TableEndRunRecorded | mem.c:65-81 | on [taken, free, taken, free] starting at block 1, a 2-block request fails and both scans record hint 1 = block 3, the run that ends at the table end, recorded when the code inspects the occupied block 0 |
| AsWritten.WrappedRunAsWritten | mem.c:65-77 | as written, the scan returns a two-block run that wraps past the table end; the corrected scan reports that no window exists |
| AsWritten.FreeAsWritten | mem.c:173-189 | as written, free ignores index 0; at index blocksNum it takes block 0's fourth byte c as the run length, storing blocksNum as hint c when c < 16, zeroing the first 4c storage bytes and adding c to the free count, and is undefined only when those bytes pass the buffer; at other indices it agrees with the corrected free |
| AsWritten.ValidIndexIff | mem.c:179 | the corrected test accepts exactly the indices below blocksNum; the written test accepts 1..blocksNum |
| AsWritten.FirstBlockLeaksAsWritten | mem.c:179-181 | as written, the block-0 allocation of a fresh heap can never be freed; the corrected free restores the full free size |
| AsWritten.StoredCountAsWritten | mem.c:158 | the stored length equals the block count up to 255, and otherwise differs from it by at least 256 |
| AsWritten.CommitAsWritten | mem.c:158-164 | as written, the head records the block count modulo 256, the m slots carry the id, nothing else changes, and up to 255 blocks it is the corrected commit |
| AsWritten.RunLengthTruncated | mem.c:158 | a 256-block run at block 1 of a 257-block heap, an index the as-written checks accept, marks every block of the run occupied but has head length 0, so heap-size reports 0 and free's memset clears nothing; the corrected alloc refuses it with no change |
| AsWritten.ReallocAsWritten | mem.c:191-200 | as written, an address with no run still consumes a new allocation; an alloc failure before the copy is undefined, and so is a whole-run copy whose source and destination byte ranges overlap |
| AsWritten.OverlappingCopyAsWritten | mem.c:198 | reallocating the 2-block run at block 1 of a 3 x 16-byte heap to 16 bytes, with block 0 free and hint 1 naming it, copies 32 bytes from offset 16 to offset 0, an overlapping memcpy; the corrected realloc copies 16 bytes into block 0 and leaves the rest unchanged |
| AsWritten.ShrinkOverwritesAsWritten | mem.c:198 | as written, shrinking a 32-byte run to 16 bytes overwrites the free block after the new run; the corrected realloc leaves that block alone |
| AsWritten.ShrinkAsWritten | mem.c:196-199 | as written, shrinking the 32-byte run at block 2 to 16 bytes (blocks 0 and 1 free) completes, block 1 stays free, and its bytes 16..31 receive the old run's second block, bytes 48..63 |
| AsWritten.ShrinkCorrected | mem.c:191-200 | the corrected shrink of the same run returns block 0 and leaves bytes 16..63 unchanged |
| AsWritten.InvalidAddressLeaksAsWritten | mem.c:193-197 | as written, realloc of a free block's address leaks a new block; the corrected realloc changes nothing |

## Left out

- Alloc: requires `size >= 1`. For `size == 0`, `MEM_CALC_BLOCKS` wraps around in `size_t`, and the `num_of_blocks == 0` branch (mem.c:135-136) can only be reached that way. Modelling it needs the machine word width.
- Create: requires `blockSize >= 1` and `blocksNum >= 1`. With zero blocks, the scan's `%` divides by zero. The NULL-context check (mem.c:104-105) has no counterpart, because a `Heap` value always exists.
- Addresses below the storage start are invalid in the model. The code computes a negative pointer difference and casts it to `uint32_t`, which is pointer arithmetic outside this model. `AsWritten.FreeAsWritten` requires such addresses to be at or after the start.
- Machine widths are unbounded, except where the code depends on them: the 24-bit id, the id wrap, and the 8-bit `count`, which are all written out. `size_t` overflow of `freeSlotsNum` and of sizes is not modelled.
- `memset` is modelled as the slot-level `Release`, except for the as-written free at index blocksNum, whose memset clears storage bytes. Realloc's `memcpy` is modelled over bytes. In the corrected realloc the copied ranges never overlap: the new run was free, and only min(old, new) bytes are copied. The as-written realloc copies the whole old size, which can reach into the old run; it is undefined when the ranges overlap.
- Allocator.ChooseRun: like the code (mem.c:51-84), the scan never returns a free window that straddles its start, because it counts such a window as two runs. Alloc then fails although a window exists (`Scenarios.StraddledWindowMissed`). The model keeps this behaviour and does not promise a first fit over the whole table.
- Allocator.Realloc: the copy reads from the start of the addressed block, while mem.c:198 reads from the address itself. The two differ for an address inside a head block but not at its start, which heap-size accepts; the code would then copy bytes past the run. Alloc only hands out block-aligned addresses.
- `AsWritten.ReallocAsWritten` uses the corrected index check and the corrected alloc, so it isolates the realloc defects. Its "undefined" outcome stands for a copy through NULL, past the storage area, or between overlapping ranges.
- A slot record is held as its 24-bit id and its count byte. `MemLayout.IdBytesOf` and `MemLayout.ReadIdBytes` spell out how the three id bytes hold the id, low byte first. The type-punned four-byte read in `MEM_IS_FREE_SLOT` is therefore modelled as "id and count are zero".
- Thread safety and the unused stdio/stdlib includes are not modelled; the code is sequential.
- The context and table are immutable values rather than mutable arrays. The scan is also given as an imperative method with loop invariants (`FreeRunSearch.WalkTable`, wrapped by `FreeRunSearch.FindFreeSlot`).

## Findings

| source | as written | input that shows it | evidently intended | confidence | as-written member | corrected member |
|---|---|---|---|---|---|---|
| mem.c:139-148 | an eligible hint is used without checking that its window lies inside the table and is free; the seeded hints reach past the table when blocksNum < 121 | fresh heap of 4 blocks, 3-block request: hint 3 holds block 4 and is returned | use a hint only when its window is free, else scan | not executed | AsWritten.ChooseRunAsWritten, AsWritten.SeededHintPastTheEnd | Allocator.ChooseRun, Scenarios.FreshThreeBlockRequest |
| mem.c:65-77 | a free run is counted across the end of the table into block 0, while the tagging loop writes its slots linearly | 3 blocks [free, taken, free], scan starting at block 2, 2-block request: block 2 is returned | a run ends at the last block | not executed | AsWritten.ScanAsWritten, AsWritten.WrappedRunAsWritten | FreeRunSearch.Scan |
| mem.c:47-53 | hint 0 is used as the scan start with no range check | the free as written accepts index blocksNum, whose record is block 0's first four bytes; when they are zero it stores blocksNum as hint 0, and a two-block request on a heap with block 1 free is then given block blocksNum, past the table (AsWritten.StartPastTheTableAsWritten) | start at block 0 when hint 0 is out of range | not executed | AsWritten.ScanAsWritten, AsWritten.StartPastTheTableAsWritten | HintCache.ScanStart |
| mem.c:179 | free (and heap-size, mem.c:94) rejects index 0 and accepts index blocksNum | first 16-byte alloc on a fresh 4 x 16-byte heap is block 0 and cannot be freed; index blocksNum is accepted, and its record is block 0's first four bytes, so a nonzero fourth byte there raises the free count above the free slots | accept exactly 0 <= index < blocksNum | not executed | AsWritten.FreeAsWritten, AsWritten.FirstBlockLeaksAsWritten, AsWritten.PastRecordCountAsWritten | Allocator.Free, Allocator.AllocFreeRoundTrip |
| mem.c:158 | the run length is stored in the 8-bit `count`, so runs of 256 blocks or more are truncated | 257 one-byte blocks, a 256-block run committed at block 1: stored length 0, so heap-size reports 0 and the run can never be freed | refuse runs the count cannot hold | not executed | AsWritten.CommitAsWritten, AsWritten.RunLengthTruncated | Allocator.Alloc |
| mem.c:191-200 | realloc allocates before checking the old address, copies the whole old size even into a smaller run or a NULL block, and returns nothing | 32-byte run at block 2 of a 4 x 16-byte heap reallocated to 16 bytes: the copy overwrites free block 1; the 32-byte run at block 1 of a 3 x 16-byte heap reallocated into block 0: the copy's ranges overlap | check the address, copy min(old, new) bytes, return the new address | not executed | AsWritten.ReallocAsWritten, AsWritten.ShrinkOverwritesAsWritten, AsWritten.OverlappingCopyAsWritten, AsWritten.InvalidAddressLeaksAsWritten | Allocator.Realloc, Allocator.ReallocCopies |

=== FILE: allocator.dfy ===
/** The allocator context and its operations (mem.c:90-205): create, alloc,
    free, realloc and the two size queries.

    Addresses are numbers: `start` stands for heaps_start_ptr and block i
    lives at start + i * blockLength. The block contents matter only to
    realloc, which takes and returns them as a byte sequence. */
module Allocator {
  import opened MemLayout
  import opened Options
  import opened SlotTable
  import opened HintCache
  import opened FreeRunSearch

  /** mem_ctx_t. */
  datatype Heap = Heap(
    slotId: nat,
    blocksNum: nat,
    blockLength: nat,
    start: nat,
    table: seq<Slot>,
    freeSlotsNum: nat,
    hints: seq<Hint>)

  /** The heap invariant: the table is a well-formed sequence of free slots
      and disjoint in-range runs, `freeSlotsNum` is the number of free slots,
      and the next id is a valid nonzero id. Nothing is assumed of the hints:
      alloc checks a hint before it uses it. */
  ghost predicate Valid(h: Heap)
  {
    && Shaped(h)
    && WellFormed(h.table)
    && h.freeSlotsNum == CountFree(h.table)
  }

  /** The shape mem_create establishes: at least one block of at least one
      byte, one slot record per block, a full hint cache and a next id in
      [1, MEM_MAX_SLOT_ID). */
  predicate Shaped(h: Heap)
  {
    && h.blocksNum >= 1 && h.blockLength >= 1
    && |h.table| == h.blocksNum && |h.hints| == HintSlots
    && 1 <= h.slotId < MaxSlotId
  }

  /** The offset of block `i` from the start of the storage area. */
  function ByteOffset(h: Heap, i: nat): nat
  {
    i * h.blockLength
  }

  /** The address of block `i`. */
  function AddrOf(h: Heap, i: nat): nat
  {
    h.start + i * h.blockLength
  }

  /** The block an address falls in (mem.c:92, mem.c:175). */
  function IndexOf(h: Heap, addr: nat): nat
    requires addr >= h.start && h.blockLength >= 1
  {
    (addr - h.start) / h.blockLength
  }

  /** The corrected index test of mem_get_heap_size and mem_free (mem.c:94,
      mem.c:179): the address falls in a block of the table, block 0
      included and block `blocksNum` excluded, that is, inside the storage
      area. */
  predicate ValidIndex(h: Heap, addr: nat)
    ensures ValidIndex(h, addr) <==>
              h.blockLength >= 1 && h.start <= addr < h.start + h.blocksNum * h.blockLength
  {
    h.blockLength >= 1 && addr >= h.start && (IndexBelowIff(h, addr); IndexOf(h, addr) < h.blocksNum)
  }

  /** The block an address falls in is below n exactly when the address is
      less than n blocks past the start. */
  lemma IndexBelowIff(h: Heap, addr: nat)
    requires h.blockLength >= 1 && addr >= h.start
    ensures IndexOf(h, addr) < h.blocksNum <==> addr - h.start < h.blocksNum * h.blockLength
  {
    var d := addr - h.start;
    var q := IndexOf(h, addr);
    assert d == q * h.blockLength + d % h.blockLength;
    if q < h.blocksNum {
      MulMono(q + 1, h.blocksNum, h.blockLength);
    } else {
      MulMono(h.blocksNum, q, h.blockLength);
    }
  }

  /** Address and block index are inverse; the address of block i < n is
      block-aligned and inside the storage area. */
  lemma AddrRoundTrip(h: Heap, i: nat)
    requires h.blockLength >= 1
    ensures AddrOf(h, i) >= h.start && IndexOf(h, AddrOf(h, i)) == i
    ensures (AddrOf(h, i) - h.start) % h.blockLength == 0
    ensures i < h.blocksNum ==>
              ValidIndex(h, AddrOf(h, i)) && AddrOf(h, i) + h.blockLength <= h.start + h.blocksNum * h.blockLength
  {
    var b := h.blockLength;
    var x := i * b;
    var q := x / b;
    assert x == q * b + x % b;
    assert (i - q) * b == x % b;
    if i - q > 0 {
      MulMono(1, i - q, b);
    }
    if i < h.blocksNum {
      MulMono(i + 1, h.blocksNum, b);
    }
  }

  /** mem_create (mem.c:101-122): clear the table, seed the hints, start ids
      at 1. */
  function Create(base: nat, blockSize: nat, blocksNum: nat): (h: Heap)
    requires blockSize >= 1 && blocksNum >= 1
    ensures Valid(h)
    ensures h.blockLength == blockSize && h.blocksNum == blocksNum
    ensures forall i :: 0 <= i < |h.table| ==> IsFree(h.table[i])
    ensures h.freeSlotsNum == blocksNum && h.slotId == 1
    ensures h.start == base + SlotRecordSize * blocksNum
    ensures h.start + blocksNum * blockSize == base + CalcBuffSize(blockSize, blocksNum)
    ensures GetFreeSize(h) == blockSize * blocksNum
    ensures h.hints == SeedHints()
  {
    var t := seq(blocksNum, _ => FreeSlot);
    assert t[0..blocksNum] == t;
    CountFreeAllFree(t, 0, blocksNum);
    Heap(1, blocksNum, blockSize, base + SlotRecordSize * blocksNum, t, blocksNum, SeedHints())
  }

  /** The id after `id`: ids count up and wrap from MEM_MAX_SLOT_ID - 1 back
      to 1, never reaching the unused id 0 (mem.c:165-167). */
  function NextSlotId(id: nat): (r: nat)
    ensures 1 <= id < MaxSlotId ==> 1 <= r < MaxSlotId && r != UnusedId
    ensures 1 <= id < MaxSlotId ==> r % (MaxSlotId - 1) == (id + 1) % (MaxSlotId - 1)
  {
    if id + 1 == MaxSlotId then 1 else id + 1
  }

  datatype Pick = Pick(index: Option<nat>, hints: seq<Hint>)

  /** The hint the cache offers for an m-block request names a window that
      lies inside the table and is free. */
  predicate HintUsable(t: seq<Slot>, m: nat, hs: seq<Hint>)
    requires 1 <= m && |hs| == HintSlots
  {
    TakeHint(hs, m).candidate.Some? && FreeWindow(t, TakeHint(hs, m).candidate.value, m)
  }

  /** Choosing the run of mem_alloc (mem.c:139-149): take the eligible hint,
      use it if its window is really free, else scan. A request fails only
      when every free window straddles the scan start, a window the scan
      sees as two runs. */
  function ChooseRun(t: seq<Slot>, m: nat, hs: seq<Hint>): (r: Pick)
    requires 0 < |t| && 1 <= m && |hs| == HintSlots
    ensures |r.hints| == HintSlots
    ensures r.index.Some? ==> FreeWindow(t, r.index.value, m)
    ensures r.index.None? ==>
              forall s: nat :: FreeWindow(t, s, m) ==> s < ScanStart(TakeHint(hs, m).hints, |t|) < s + m
  {
    var taken := TakeHint(hs, m);
    if taken.candidate.Some? && FreeWindow(t, taken.candidate.value, m) then
      Pick(taken.candidate, taken.hints)
    else
      var o := Scan(t, m, taken.hints);
      Pick(o.found, o.hints)
  }

  /** Which run is chosen and which hints are left. A usable hint is used
      and its entry reset, nothing else changing; otherwise the scan starts
      from the cache as the lookup left it, returns the circular first fit
      and leaves the hints of the runs it passes. */
  lemma ChooseRunChoice(t: seq<Slot>, m: nat, hs: seq<Hint>)
    requires 0 < |t| && 1 <= m && |hs| == HintSlots
    ensures var r := ChooseRun(t, m, hs);
            HintUsable(t, m, hs) ==>
              && r.index == TakeHint(hs, m).candidate
              && exists k :: 0 <= k < HintSlots && Eligible(m, k) && hs[k] == At(r.index.value)
                          && r.hints == hs[k := Unassigned]
    ensures var r := ChooseRun(t, m, hs);
            !HintUsable(t, m, hs) ==>
              && r.index == CircularFirstFit(t, m, ScanStart(TakeHint(hs, m).hints, |t|))
              && r.hints == PassedRunHints(t, m, TakeHint(hs, m).hints)
              && HintsSound(t, TakeHint(hs, m).hints, r.hints)
  {
  }

  datatype AllocResult = AllocResult(heap: Heap, addr: Option<nat>)

  /** mem_alloc (mem.c:124-171), with the checks that keep the heap
      invariant: a hint is used only when its window is free, the scan never
      returns a run across the table end, and a run longer than the 8-bit
      count can record is refused. */
  function Alloc(h: Heap, size: nat): (r: AllocResult)
    requires Shaped(h) && size >= 1
    ensures r.heap.blocksNum == h.blocksNum && r.heap.blockLength == h.blockLength && r.heap.start == h.start
    ensures |r.heap.hints| == HintSlots && |r.heap.table| == |h.table|
    ensures CalcBlocks(h.blockLength, size) > h.freeSlotsNum ==> r == AllocResult(h, None)
    ensures CalcBlocks(h.blockLength, size) > MaxCount ==> r == AllocResult(h, None)
    ensures r.addr.None? ==>
              r.heap.table == h.table && r.heap.freeSlotsNum == h.freeSlotsNum && r.heap.slotId == h.slotId
    ensures r.addr.Some? ==> r.addr.value >= h.start
    ensures r.addr.Some? ==>
              var m := CalcBlocks(h.blockLength, size);
              var i := IndexOf(h, r.addr.value);
              && r.addr.value == AddrOf(h, i)
              && FreeWindow(h.table, i, m)
              && r.heap.table[i].count == m
              && (forall j :: i <= j < i + m ==> GetSlotId(r.heap.table[j]) == h.slotId)
              && (forall j :: 0 <= j < h.blocksNum && !(i <= j < i + m) ==> r.heap.table[j] == h.table[j])
              && r.heap.freeSlotsNum == h.freeSlotsNum - m
              && r.heap.slotId == NextSlotId(h.slotId)
  {
    var m := CalcBlocks(h.blockLength, size);
    if m > h.freeSlotsNum || m > MaxCount then
      AllocResult(h, None)
    else
      var pick := ChooseRun(h.table, m, h.hints);
      if pick.index.None? then
        AllocResult(h.(hints := pick.hints), None)
      else
        var i := pick.index.value;
        AddrRoundTrip(h, i);
        var t' := Commit(h.table, i, m, h.slotId);
        AllocResult(
          h.(table := t', hints := pick.hints, slotId := NextSlotId(h.slotId), freeSlotsNum := h.freeSlotsNum - m),
          Some(AddrOf(h, i)))
  }

  /** mem_free (mem.c:173-189), with the index check corrected to
      0 <= index < blocksNum. */
  function Free(h: Heap, addr: nat): (h': Heap)
    requires Valid(h)
    ensures h'.blocksNum == h.blocksNum && h'.blockLength == h.blockLength && h'.start == h.start
    ensures h'.slotId == h.slotId && |h'.hints| == HintSlots && |h'.table| == |h.table|
    ensures !ValidIndex(h, addr) ==> h' == h
    ensures ValidIndex(h, addr) ==>
              var i := IndexOf(h, addr);
              var c := h.table[i].count;
              && i + c <= h.blocksNum
              && (forall j :: 0 <= j < h.blocksNum ==>
                    h'.table[j] == if i <= j < i + c then FreeSlot else h.table[j])
              && h'.freeSlotsNum == h.freeSlotsNum + c
              && (c < HintSlots ==> h'.hints[c] == At(i))
              && (forall k :: 0 <= k < HintSlots && k != c ==> h'.hints[k] == h.hints[k])
  {
    if !ValidIndex(h, addr) then h
    else
      var i := IndexOf(h, addr);
      var c := h.table[i].count;
      assert RunOk(h.table, i);
      h.(hints := if c < HintSlots then h.hints[c := At(i)] else h.hints,
         table := Release(h.table, i),
         freeSlotsNum := h.freeSlotsNum + c)
  }

  /** mem_get_heap_size (mem.c:90-99), with the index check corrected: the
      byte size of the run whose head the address falls in, or 0. */
  function GetHeapSize(h: Heap, addr: nat): (r: nat)
    ensures r > 0 ==> ValidIndex(h, addr) && h.blockLength >= 1 && |h.table| > IndexOf(h, addr)
    ensures r > 0 ==> h.table[IndexOf(h, addr)].count > 0
  {
    if !ValidIndex(h, addr) || |h.table| != h.blocksNum then 0
    else h.table[IndexOf(h, addr)].count * h.blockLength
  }

  /** On a valid heap a nonzero heap size is a whole run inside the storage
      area: count blocks from the addressed head, all of them occupied. */
  lemma HeapSizeIsLiveRun(h: Heap, addr: nat)
    requires Valid(h) && GetHeapSize(h, addr) > 0
    ensures var i := IndexOf(h, addr);
            var c := h.table[i].count;
            && GetHeapSize(h, addr) == c * h.blockLength
            && i + c <= h.blocksNum
            && (forall j :: i <= j < i + c ==> !IsFree(h.table[j]))
  {
    var i := IndexOf(h, addr);
    assert RunOk(h.table, i);
    forall j | i <= j < i + h.table[i].count
      ensures !IsFree(h.table[j])
    {
      if j > i {
        assert GetSlotId(h.table[j]) == GetSlotId(h.table[i]);
      }
    }
  }

  /** The other direction: on a valid heap an address inside the storage
      area reports count * blockLength for the slot it falls in, so a run
      head reports the bytes of its run, and a free slot or a run's tail
      slot reports 0. */
  lemma HeapSizeOfIndex(h: Heap, addr: nat)
    requires Valid(h) && ValidIndex(h, addr)
    ensures var c := h.table[IndexOf(h, addr)].count;
            && GetHeapSize(h, addr) == c * h.blockLength
            && (GetHeapSize(h, addr) > 0 <==> c > 0)
  {
    var c := h.table[IndexOf(h, addr)].count;
    if c > 0 {
      MulMono(1, c, h.blockLength);
    }
  }

  /** mem_get_free_size (mem.c:202-205): the bytes of all free blocks. */
  function GetFreeSize(h: Heap): (r: nat)
    ensures Valid(h) ==> r == CountFree(h.table) * h.blockLength
  {
    h.freeSlotsNum * h.blockLength
  }

  function Min(a: nat, b: nat): nat
  {
    if a <= b then a else b
  }

  datatype ReallocResult = ReallocResult(heap: Heap, data: seq<Byte>, addr: Option<nat>)

  /** mem_realloc (mem.c:191-200) in its corrected order: refuse an address
      that is not a live run, allocate the new run, copy min(old, new) bytes,
      free the old run and return the new address. `data` is the storage
      area, blocksNum * blockLength bytes. */
  function Realloc(h: Heap, data: seq<Byte>, addr: nat, size: nat): (r: ReallocResult)
    requires Valid(h) && |data| == h.blocksNum * h.blockLength && size >= 1
    ensures |r.data| == |data|
    ensures r.addr.None? ==> r.data == data && r.heap.table == h.table && r.heap.freeSlotsNum == h.freeSlotsNum
    ensures GetHeapSize(h, addr) == 0 ==> r == ReallocResult(h, data, None)
    ensures r.addr.Some? <==> GetHeapSize(h, addr) > 0 && Alloc(h, size).addr.Some?
    ensures r.addr.Some? ==> r.addr == Alloc(h, size).addr
  {
    var oldSize := GetHeapSize(h, addr);
    if oldSize == 0 then ReallocResult(h, data, None)
    else
      var a := Alloc(h, size);
      if a.addr.None? then ReallocResult(a.heap, data, None)
      else
        AllocKeepsValid(h, size);
        ReallocBounds(h, addr, size);
        var from := ByteOffset(h, IndexOf(h, addr));
        var to := a.addr.value - h.start;
        var len := Min(oldSize, size);
        ReallocResult(Free(a.heap, addr), CopyWithin(data, from, to, len), a.addr)
  }

  /** memcpy of `len` bytes from offset `from` to offset `to` of the storage
      area, for ranges that do not overlap or where the copy reads each byte
      before writing it: the bytes of [to, to + len) become the old bytes of
      [from, from + len) and nothing else changes. */
  function CopyWithin(data: seq<Byte>, from: nat, to: nat, len: nat): (r: seq<Byte>)
    requires from + len <= |data| && to + len <= |data|
    ensures |r| == |data|
    ensures CopiedOnce(data, r, from, to, len)
  {
    data[..to] + data[from..from + len] + data[to + len..]
  }

  /** `after` is `before` with the `len` bytes at `from` copied to `to`:
      both ranges lie inside the area, the bytes of [to, to + len) are the
      old bytes of [from, from + len), and every other byte is unchanged. */
  predicate CopiedOnce(before: seq<Byte>, after: seq<Byte>, from: int, to: int, len: nat)
  {
    && 0 <= from && 0 <= to && |after| == |before|
    && to + len <= |before| && from + len <= |before|
    && (forall x :: to <= x < to + len ==> after[x] == before[x - to + from])
    && (forall x {:trigger after[x]} :: 0 <= x < |before| && !(to <= x < to + len) ==> after[x] == before[x])
  }

  /** Both copy ranges of a successful realloc lie inside the storage area. */
  lemma ReallocBounds(h: Heap, addr: nat, size: nat)
    requires Valid(h) && size >= 1 && GetHeapSize(h, addr) > 0 && Alloc(h, size).addr.Some?
    ensures Alloc(h, size).addr.value - h.start + Min(GetHeapSize(h, addr), size) <= h.blocksNum * h.blockLength
    ensures IndexOf(h, addr) * h.blockLength + Min(GetHeapSize(h, addr), size) <= h.blocksNum * h.blockLength
  {
    var b := h.blockLength;
    var n := h.blocksNum;
    var i := IndexOf(h, addr);
    var c := h.table[i].count;
    HeapSizeIsLiveRun(h, addr);
    RunFits(i, c, n, b);
    var a := Alloc(h, size).addr.value;
    var m := CalcBlocks(b, size);
    var j := IndexOf(h, a);
    assert a - h.start == j * b;
    assert FreeWindow(h.table, j, m);
    RunFits(j, m, n, b);
  }

  /** A run [i, i + c) of an n-block table spans bytes [i * b, (i + c) * b)
      of the n * b storage bytes. */
  lemma RunFits(i: nat, c: nat, n: nat, b: nat)
    requires i + c <= n
    ensures i * b + c * b <= n * b
  {
    MulAdd(i, c, b);
    MulMono(i + c, n, b);
  }

  /** Alloc keeps the heap invariant. */
  lemma AllocKeepsValid(h: Heap, size: nat)
    requires Valid(h) && size >= 1
    ensures Valid(Alloc(h, size).heap)
  {
    var r := Alloc(h, size);
    if r.addr.Some? {
      var m := CalcBlocks(h.blockLength, size);
      var i := IndexOf(h, r.addr.value);
      CommitKeepsWellFormed(h.table, i, m, h.slotId);
    }
  }

  /** Free keeps the heap invariant, whatever address it is given. */
  lemma FreeKeepsValid(h: Heap, addr: nat)
    requires Valid(h)
    ensures Valid(Free(h, addr))
  {
    if ValidIndex(h, addr) {
      ReleaseKeepsWellFormed(h.table, IndexOf(h, addr));
    }
  }

  /** Every successful alloc hands out a run that was entirely free, so it
      overlaps no live run; the new run is inside the storage area and
      block-aligned. */
  lemma AllocIsDisjointFromLiveRuns(h: Heap, size: nat, k: nat)
    requires Valid(h) && size >= 1 && Alloc(h, size).addr.Some?
    requires k < h.blocksNum && h.table[k].count > 0
    ensures var i := IndexOf(h, Alloc(h, size).addr.value);
            var m := CalcBlocks(h.blockLength, size);
            k + h.table[k].count <= i || i + m <= k
    ensures var a := Alloc(h, size).addr.value;
            (a - h.start) % h.blockLength == 0
            && a + CalcActualSize(h.blockLength, size) <= h.start + h.blocksNum * h.blockLength
  {
    var t := h.table;
    var a := Alloc(h, size).addr.value;
    var i := IndexOf(h, a);
    var m := CalcBlocks(h.blockLength, size);
    assert FreeWindow(t, i, m);
    assert RunOk(t, k);
    assert !IsFree(t[k]);
    assert k < i < k + t[k].count ==> !IsFree(t[i]);
    AddrRoundTrip(h, i);
    RunFits(i, m, h.blocksNum, h.blockLength);
  }

  /** Freeing what alloc returned restores the table and the free count,
      and so the free size; block 0 included. */
  lemma AllocFreeRoundTrip(h: Heap, size: nat)
    requires Valid(h) && size >= 1 && Alloc(h, size).addr.Some?
    ensures Valid(Alloc(h, size).heap)
    ensures Free(Alloc(h, size).heap, Alloc(h, size).addr.value).table == h.table
    ensures Free(Alloc(h, size).heap, Alloc(h, size).addr.value).freeSlotsNum == h.freeSlotsNum
    ensures GetFreeSize(Free(Alloc(h, size).heap, Alloc(h, size).addr.value)) == GetFreeSize(h)
  {
    var r := Alloc(h, size);
    AllocKeepsValid(h, size);
    var a := r.addr.value;
    var i := IndexOf(h, a);
    var m := CalcBlocks(h.blockLength, size);
    AddrRoundTrip(h, i);
    assert ValidIndex(r.heap, a);
    var h' := Free(r.heap, a);
    forall j | 0 <= j < h.blocksNum
      ensures h'.table[j] == h.table[j]
    {
      if i <= j < i + m {
        assert IsFree(h.table[j]);
      }
    }
  }

  /** When alloc succeeds: exactly when the request passes the admission
      checks and either the hint is usable or some free window does not
      straddle the scan start (mem.c:130-153). Without the first, alloc
      returns NULL; with a free window the scan can reach, it never does. */
  lemma AllocSucceedsIff(h: Heap, size: nat)
    requires Shaped(h) && size >= 1
    ensures var m := CalcBlocks(h.blockLength, size);
            var p := ScanStart(TakeHint(h.hints, m).hints, h.blocksNum);
            Alloc(h, size).addr.Some? <==>
              && m <= h.freeSlotsNum && m <= MaxCount
              && (HintUsable(h.table, m, h.hints) || exists s: nat :: FreeWindow(h.table, s, m) && !(s < p < s + m))
  {
    var m := CalcBlocks(h.blockLength, size);
    var p := ScanStart(TakeHint(h.hints, m).hints, h.blocksNum);
    ChooseRunChoice(h.table, m, h.hints);
    if Alloc(h, size).addr.Some? && !HintUsable(h.table, m, h.hints) {
      var s := ChooseRun(h.table, m, h.hints).index.value;
      assert FreeWindow(h.table, s, m) && !(s < p < s + m);
    }
  }

  /** The success half with an explicit window: a request that passes the
      admission checks and fits a free window the scan can reach is served. */
  lemma AllocSucceedsOnWindow(h: Heap, size: nat, s: nat)
    requires Shaped(h) && size >= 1
    requires CalcBlocks(h.blockLength, size) <= h.freeSlotsNum && CalcBlocks(h.blockLength, size) <= MaxCount
    requires FreeWindow(h.table, s, CalcBlocks(h.blockLength, size))
    requires var m := CalcBlocks(h.blockLength, size);
             !(s < ScanStart(TakeHint(h.hints, m).hints, h.blocksNum) < s + m)
    ensures Alloc(h, size).addr.Some?
  {
    AllocSucceedsIff(h, size);
  }

  /** The round trip completed: after freeing what alloc returned, the same
      request succeeds again. A run of 2..15 blocks comes back through the
      hint free records; a single block always fits; a longer run is found
      again by the same scan, which starts where it started before. */
  lemma AllocFreeAlloc(h: Heap, size: nat)
    requires Valid(h) && size >= 1 && Alloc(h, size).addr.Some?
    ensures Valid(Alloc(h, size).heap)
    ensures Alloc(Free(Alloc(h, size).heap, Alloc(h, size).addr.value), size).addr.Some?
  {
    var r := Alloc(h, size);
    AllocFreeRoundTrip(h, size);
    var a := r.addr.value;
    var i := IndexOf(h, a);
    var m := CalcBlocks(h.blockLength, size);
    var h2 := Free(r.heap, a);
    AddrRoundTrip(h, i);
    assert IndexOf(r.heap, a) == i;
    assert r.heap.table[i].count == m;
    assert FreeWindow(h2.table, i, m);
    if m == 1 {
      AllocSucceedsOnWindow(h2, size, i);
    } else if m < HintSlots {
      assert h2.hints[m] == At(i);
      assert TakeHint(h2.hints, m).candidate == Some(i);
      AllocSucceedsIff(h2, size);
    } else {
      LargeRequestsSkipCache(h.hints, m);
      LargeRequestsSkipCache(h2.hints, m);
      var pick := ChooseRun(h.table, m, h.hints);
      ChooseRunChoice(h.table, m, h.hints);
      assert !HintUsable(h.table, m, h.hints);
      assert pick.index == Some(i);
      assert r.heap.hints[0] == h.hints[0] by {
        assert HintsSound(h.table, h.hints, pick.hints);
        assert !RecordedRun(h.table, pick.hints[0], 0);
      }
      assert h2.hints[0] == h.hints[0];
      assert ScanStart(h2.hints, h.blocksNum) == ScanStart(h.hints, h.blocksNum);
      AllocSucceedsOnWindow(h2, size, i);
    }
  }

  /** The heap size of a fresh allocation is its request rounded up to whole
      blocks: the 8-bit count holds the full run length. */
  lemma AllocThenHeapSize(h: Heap, size: nat)
    requires Valid(h) && size >= 1 && Alloc(h, size).addr.Some?
    ensures GetHeapSize(Alloc(h, size).heap, Alloc(h, size).addr.value) == CalcActualSize(h.blockLength, size)
    ensures size <= GetHeapSize(Alloc(h, size).heap, Alloc(h, size).addr.value) < size + h.blockLength
  {
    var r := Alloc(h, size);
    var m := CalcBlocks(h.blockLength, size);
    var a := r.addr.value;
    var i := IndexOf(h, a);
    assert i < h.blocksNum by { assert FreeWindow(h.table, i, m); }
    assert a == AddrOf(r.heap, i);
    HeadSize(r.heap, i, m);
    assert CalcActualSize(h.blockLength, size) == m * h.blockLength;
  }

  lemma HeadSize(h: Heap, i: nat, m: nat)
    requires h.blockLength >= 1 && |h.table| == h.blocksNum && i < h.blocksNum && h.table[i].count == m
    ensures GetHeapSize(h, AddrOf(h, i)) == m * h.blockLength
  {
    AddrRoundTrip(h, i);
  }

  /** A successful alloc lowers the free size by the rounded-up request. */
  lemma AllocLowersFreeSize(h: Heap, size: nat)
    requires Valid(h) && size >= 1 && Alloc(h, size).addr.Some?
    ensures GetFreeSize(Alloc(h, size).heap) + CalcActualSize(h.blockLength, size) == GetFreeSize(h)
  {
    var m := CalcBlocks(h.blockLength, size);
    var h' := Alloc(h, size).heap;
    FreeSizeDrop(h, h', m);
  }

  lemma FreeSizeDrop(h: Heap, h': Heap, m: nat)
    requires h.blockLength >= 1 && m <= h.freeSlotsNum
    requires h'.freeSlotsNum == h.freeSlotsNum - m && h'.blockLength == h.blockLength
    ensures GetFreeSize(h') + m * h.blockLength == GetFreeSize(h)
  {
    MulAdd(h.freeSlotsNum - m, m, h.blockLength);
  }

  /** A request for more blocks than are free fails and changes nothing. */
  lemma AllocAdmission(h: Heap, size: nat)
    requires Valid(h) && size >= 1
    requires CalcBlocks(h.blockLength, size) * h.blockLength > GetFreeSize(h)
    ensures Alloc(h, size) == AllocResult(h, None)
  {
    var m := CalcBlocks(h.blockLength, size);
    if m <= h.freeSlotsNum {
      MulMono(m, h.freeSlotsNum, h.blockLength);
    }
  }

  /** Realloc keeps the heap invariant; on success the old run is free and
      the new one is live. */
  lemma ReallocKeepsValid(h: Heap, data: seq<Byte>, addr: nat, size: nat)
    requires Valid(h) && |data| == h.blocksNum * h.blockLength && size >= 1
    ensures Valid(Realloc(h, data, addr, size).heap)
  {
    AllocKeepsValid(h, size);
    var a := Alloc(h, size);
    if GetHeapSize(h, addr) > 0 && a.addr.Some? {
      FreeKeepsValid(a.heap, addr);
    }
  }

  /** A successful realloc carries the first min(old, new) bytes of the old
      run to the start of the new run and leaves every other byte alone. */
  lemma ReallocCopies(h: Heap, data: seq<Byte>, addr: nat, size: nat)
    requires Valid(h) && |data| == h.blocksNum * h.blockLength && size >= 1
    requires Realloc(h, data, addr, size).addr.Some?
    ensures GetHeapSize(h, addr) > 0
    ensures var r := Realloc(h, data, addr, size);
            var from := IndexOf(h, addr) * h.blockLength;
            var to := r.addr.value - h.start;
            var len := Min(GetHeapSize(h, addr), size);
            r.addr.value >= h.start && CopiedOnce(data, r.data, from, to, len)
  {
    ReallocBounds(h, addr, size);
    ReallocData(h, data, addr, size);
  }

  /** The bytes a successful realloc returns are one copy of the old run's
      prefix to the new address. */
  lemma ReallocData(h: Heap, data: seq<Byte>, addr: nat, size: nat)
    requires Valid(h) && |data| == h.blocksNum * h.blockLength && size >= 1
    requires Realloc(h, data, addr, size).addr.Some?
    ensures GetHeapSize(h, addr) > 0 && Alloc(h, size).addr.Some?
    ensures Alloc(h, size).addr.value - h.start + Min(GetHeapSize(h, addr), size) <= |data|
    ensures IndexOf(h, addr) * h.blockLength + Min(GetHeapSize(h, addr), size) <= |data|
    ensures Realloc(h, data, addr, size).data
            == CopyWithin(data, IndexOf(h, addr) * h.blockLength, Alloc(h, size).addr.value - h.start,
                          Min(GetHeapSize(h, addr), size))
  {
    ReallocBounds(h, addr, size);
  }

  /** A successful realloc moves the allocation: the new address holds a run
      of the rounded-up new size, every block of the old run is free, and the
      free count changes by old minus new blocks. */
  lemma ReallocMovesRun(h: Heap, data: seq<Byte>, addr: nat, size: nat)
    requires Valid(h) && |data| == h.blocksNum * h.blockLength && size >= 1
    requires Realloc(h, data, addr, size).addr.Some?
    ensures var r := Realloc(h, data, addr, size);
            var i := IndexOf(h, addr);
            var c := h.table[i].count;
            && Valid(r.heap)
            && GetHeapSize(r.heap, r.addr.value) == CalcActualSize(h.blockLength, size)
            && i + c <= h.blocksNum
            && (forall j :: i <= j < i + c ==> IsFree(r.heap.table[j]))
            && r.heap.freeSlotsNum + CalcBlocks(h.blockLength, size) == h.freeSlotsNum + c
  {
    var a := Alloc(h, size);
    AllocKeepsValid(h, size);
    FreeOldRun(h, a, addr, CalcBlocks(h.blockLength, size));
  }

  /** Freeing the old run after the new one was committed: what a successful
      realloc does to the table, given the alloc result `a`. */
  lemma FreeOldRun(h: Heap, a: AllocResult, addr: nat, m: nat)
    requires Valid(h) && Valid(a.heap) && a.addr.Some? && GetHeapSize(h, addr) > 0 && m >= 1
    requires a.heap.blocksNum == h.blocksNum && a.heap.blockLength == h.blockLength && a.heap.start == h.start
    requires a.addr.value >= h.start
    requires var k := IndexOf(h, a.addr.value);
             && a.addr.value == AddrOf(h, k)
             && FreeWindow(h.table, k, m)
             && a.heap.table[k].count == m
             && (forall j :: 0 <= j < h.blocksNum && !(k <= j < k + m) ==> a.heap.table[j] == h.table[j])
             && a.heap.freeSlotsNum == h.freeSlotsNum - m
    ensures var i := IndexOf(h, addr);
            var c := h.table[i].count;
            var r := Free(a.heap, addr);
            && Valid(r)
            && GetHeapSize(r, a.addr.value) == m * h.blockLength
            && i + c <= h.blocksNum
            && (forall j :: i <= j < i + c ==> IsFree(r.table[j]))
            && r.freeSlotsNum + m == h.freeSlotsNum + c
  {
    HeapSizeIsLiveRun(h, addr);
    var i := IndexOf(h, addr);
    var c := h.table[i].count;
    var k := IndexOf(h, a.addr.value);
    AddrRoundTrip(h, k);
    assert !(k <= i < k + m) by {
      assert !IsFree(h.table[i]);
    }
    assert a.heap.table[i] == h.table[i];
    assert ValidIndex(a.heap, addr);
    FreeKeepsValid(a.heap, addr);
    var r := Free(a.heap, addr);
    assert !(i <= k < i + c) by {
      assert IsFree(h.table[k]);
    }
    assert r.table[k] == a.heap.table[k];
    assert IndexOf(r, a.addr.value) == k;
  }
}

=== FILE: as_written.dfy ===
/** The allocator's defects as the code is written, each beside the input that
    exhibits it. The rest of the model uses the corrected definitions; each
    lemma here also states what the corrected definition does on the same
    input. */
module AsWritten {
  import opened MemLayout
  import opened Options
  import opened SlotTable
  import opened HintCache
  import opened FreeRunSearch
  import opened Allocator
  import opened Scenarios

  /** What a call as written can leave behind. `Undefined` is a memory
      access past the buffer the heap was created on, or a memcpy that C
      leaves undefined. */
  datatype Outcome = Undefined | Done(heap: Heap, data: seq<Byte>)

  // ---------------------------------------------------------------------
  // Hints used without a check (mem.c:116-119, mem.c:139-148)
  // ---------------------------------------------------------------------

  /** The run choice of mem_alloc as written: an eligible hint is taken on
      trust, without checking that its window is inside the table or free;
      otherwise the scan as written runs, over the storage bytes `data` when
      hint 0 lies past the table. None stands for that scan's read past the
      buffer. */
  function ChooseRunAsWritten(t: seq<Slot>, m: nat, hs: seq<Hint>, data: seq<Byte>): (r: Option<Pick>)
    requires 0 < |t| && 1 <= m && |hs| == HintSlots
    ensures r.Some? ==> |r.value.hints| == HintSlots
    ensures TakeHint(hs, m).candidate.Some? ==> r == Some(Pick(TakeHint(hs, m).candidate, TakeHint(hs, m).hints))
    ensures TakeHint(hs, m).candidate.Some? && FreeWindow(t, TakeHint(hs, m).candidate.value, m) ==>
              ChooseRun(t, m, hs).index == r.value.index
  {
    var taken := TakeHint(hs, m);
    if taken.candidate.Some? then Some(Pick(taken.candidate, taken.hints))
    else
      match ScanAsWritten(t, m, taken.hints, data)
      case None => None
      case Some(o) => Some(Pick(o.found, o.hints))
  }

  /** On a fresh table of four blocks, a three-block request is given the
      seeded hint of class 3, block 4: a window that starts past the table.
      The corrected choice rejects the hint and scans, taking block 0. */
  lemma SeededHintPastTheEnd(t: seq<Slot>, data: seq<Byte>)
    requires |t| == 4 && forall i :: 0 <= i < 4 ==> IsFree(t[i])
    ensures ChooseRunAsWritten(t, 3, SeedHints(), data).Some?
    ensures ChooseRunAsWritten(t, 3, SeedHints(), data).value.index == Some(4)
    ensures !FreeWindow(t, 4, 3)
    ensures ChooseRun(t, 3, SeedHints()).index == Some(0)
  {
    var hs := SeedHints();
    assert Seed(3) == 4;
    var taken := TakeHint(hs, 3);
    assert taken.candidate == Some(4);
    assert taken.hints[0] == At(0);
    assert ScanStart(taken.hints, 4) == 0;
    assert FreeWindow(t, 0, 3);
    assert FirstFit(t, 3, 0, 4) == Some(0);
  }

  // ---------------------------------------------------------------------
  // A free run counted across the table end (mem.c:65-77, mem.c:161-164)
  // ---------------------------------------------------------------------

  /** mem_find_free_slot as written: it starts at hint 0 with no range check
      (mem.c:47-50), and a free run continues from the last block to block 0.
      With the start in range it is the corrected start. A start p past the
      table makes the first inspection read the record the table would have
      at p, which lies in the storage bytes `data`; None stands for a record
      past the end of the buffer. */
  function ScanAsWritten(t: seq<Slot>, m: nat, hs: seq<Hint>, data: seq<Byte>): (r: Option<ScanOutcome>)
    requires 0 < |t| && |hs| == HintSlots
    ensures r.None? <==> hs[0].At? && hs[0].index >= |t| && RecordPastTable(data, |t|, hs[0].index).None?
    ensures r.Some? ==> |r.value.hints| == HintSlots
    ensures !(hs[0].At? && hs[0].index >= |t|) ==> r == Some(ScanFrom(t, m, hs, ScanStart(hs, |t|), 0, 0, 0, false))
  {
    if hs[0].At? && hs[0].index >= |t| then
      match RecordPastTable(data, |t|, hs[0].index)
      case None => None
      case Some(s) => Some(ScanPastTable(t, m, hs, hs[0].index, s))
    else Some(ScanFrom(t, m, hs, if hs[0].At? then hs[0].index else 0, 0, 0, 0, false))
  }

  /** The record the code reads at an index i >= blocksNum. The table ends
      where the storage area begins (mem.c:108-110), so it is the four
      storage bytes at offset 4 * (i - blocksNum): three id bytes, low byte
      first, then the count. None when they reach past the buffer. */
  function RecordPastTable(data: seq<Byte>, n: nat, i: nat): (r: Option<Slot>)
    requires i >= n
    ensures r.Some? <==> SlotRecordSize * (i - n) + SlotRecordSize <= |data|
    ensures r.Some? ==>
              var o := SlotRecordSize * (i - n);
              && r.value.count == data[o + 3]
              && (IsFree(r.value) <==> data[o] == 0 && data[o + 1] == 0 && data[o + 2] == 0 && data[o + 3] == 0)
  {
    var o := SlotRecordSize * (i - n);
    if o + SlotRecordSize > |data| then None
    else Some(Slot(ReadIdBytes(data[o..o + 3]), data[o + 3]))
  }

  /** The scan as written after its first inspection, of the record `s` at
      index p >= blocksNum. The index then moves to (p + 1) mod blocksNum, so
      the scan goes on inside the table; a free `s` is the first slot of a
      run that starts at p. */
  function ScanPastTable(t: seq<Slot>, m: nat, hs: seq<Hint>, p: nat, s: Slot): (r: ScanOutcome)
    requires 0 < |t| <= p && |hs| == HintSlots
    ensures |r.hints| == HintSlots
    ensures IsFree(s) && m == 1 ==> r == ScanOutcome(Some(p), hs)
    ensures |t| == 1 && !(IsFree(s) && m == 1) ==> r == ScanOutcome(None, hs)
  {
    var n := |t|;
    if IsFree(s) && m == 1 then ScanOutcome(Some(p), hs)
    else if n == 1 then ScanOutcome(None, hs)
    else ScanFrom(t, m, hs, (p + 1) % n, 1, if IsFree(s) then 1 else 0, p, false)
  }

  /** Hint 0 can name block blocksNum: the free as written accepts the
      address one past the last block, and when the first four bytes of
      block 0, which it reads as that block's record, are zero, it stores
      blocksNum as hint 0 and changes nothing else (mem.c:179-188). A
      two-block request with hint 2 unassigned then scans from blocksNum: the
      scan as written reads those zero bytes as a free slot, moves on to
      block 1, and returns block blocksNum, past the table. The corrected
      scan starts at block 0, the corrected choice never returns a block
      past the table, and the corrected free ignores the address. */
  lemma StartPastTheTableAsWritten(h: Heap, data: seq<Byte>)
    requires Valid(h) && |data| == h.blocksNum * h.blockLength
    requires h.blocksNum >= 2 && IsFree(h.table[1]) && h.hints[2] == Unassigned
    requires |data| >= SlotRecordSize && data[0] == 0 && data[1] == 0 && data[2] == 0 && data[3] == 0
    ensures var addr := AddrOf(h, h.blocksNum);
            var r := FreeAsWritten(h, data, addr);
            && r == Done(h.(hints := h.hints[0 := At(h.blocksNum)]), data)
            && ChooseRunAsWritten(r.heap.table, 2, r.heap.hints, data) == Some(Pick(Some(h.blocksNum), r.heap.hints))
            && ScanStart(r.heap.hints, h.blocksNum) == 0
            && ChooseRun(h.table, 2, r.heap.hints).index != Some(h.blocksNum)
            && Free(h, addr) == h
  {
    var n := h.blocksNum;
    var hs := h.hints[0 := At(n)];
    FreeZeroCountPastTable(h, data);
    ScanPastTableAsWritten(h.table, hs, data);
    var pick := ChooseRun(h.table, 2, hs);
    assert pick.index.Some? ==> pick.index.value + 2 <= n;
  }

  /** The free as written of the address of block blocksNum, when block 0
      begins with a zero count byte: hint 0 becomes blocksNum and nothing
      else changes, while the corrected free ignores the address. */
  lemma FreeZeroCountPastTable(h: Heap, data: seq<Byte>)
    requires Valid(h) && |data| == h.blocksNum * h.blockLength
    requires |data| >= SlotRecordSize && data[3] == 0
    ensures FreeAsWritten(h, data, AddrOf(h, h.blocksNum)) == Done(h.(hints := h.hints[0 := At(h.blocksNum)]), data)
    ensures Free(h, AddrOf(h, h.blocksNum)) == h
  {
    AddrRoundTrip(h, h.blocksNum);
    var r := FreeAsWritten(h, data, AddrOf(h, h.blocksNum));
    assert r.data == data;
  }

  /** A two-block choice as written with hint 0 at blocksNum, hint 2
      unassigned, zero bytes at the start of block 0 and block 1 free: the
      scan reads those bytes as a free slot at index blocksNum, goes on at
      block 1, and returns blocksNum. */
  lemma ScanPastTableAsWritten(t: seq<Slot>, hs: seq<Hint>, data: seq<Byte>)
    requires |t| >= 2 && IsFree(t[1]) && |hs| == HintSlots && hs[0] == At(|t|) && hs[2] == Unassigned
    requires |data| >= SlotRecordSize && data[0] == 0 && data[1] == 0 && data[2] == 0 && data[3] == 0
    ensures ChooseRunAsWritten(t, 2, hs, data) == Some(Pick(Some(|t|), hs))
  {
    var n := |t|;
    assert TakeHint(hs, 2) == Taken(None, hs);
    var s := RecordPastTable(data, n, n).value;
    assert (n + 1) % n == 1 by {
      assert n + 1 == 1 * n + 1;
    }
    assert ScanPastTable(t, 2, hs, n, s) == ScanFrom(t, 2, hs, 1, 1, 1, n, false);
  }

  /** When block 0 begins with a nonzero count byte c, the free as written
      of the address of block blocksNum writes hint c (for c < 16), zeroes
      the first 4c bytes of block storage and adds c to the free count: the
      table is unchanged, so the free count no longer counts the free slots
      and the heap is no longer valid. The corrected free changes nothing. */
  lemma PastRecordCountAsWritten(h: Heap, data: seq<Byte>)
    requires Valid(h) && |data| == h.blocksNum * h.blockLength
    requires |data| >= SlotRecordSize && data[3] > 0 && SlotRecordSize * data[3] <= |data|
    ensures var r := FreeAsWritten(h, data, AddrOf(h, h.blocksNum));
            && r.Done? && r.heap.table == h.table
            && r.heap.freeSlotsNum == h.freeSlotsNum + data[3]
            && !Valid(r.heap)
            && (data[3] < HintSlots ==> r.heap.hints[data[3]] == At(h.blocksNum))
            && (forall x :: 0 <= x < SlotRecordSize * data[3] ==> r.data[x] == 0)
    ensures Free(h, AddrOf(h, h.blocksNum)) == h
  {
    AddrRoundTrip(h, h.blocksNum);
  }

  /** Blocks 0 and 2 of a three-block table are free and block 1 is taken;
      with the scan starting at block 2, the scan as written returns block 2
      for a two-block request, a run that wraps to block 0 and that the
      linear tagging loop would write past the table. The corrected scan
      finds no window, as there is none. */
  lemma WrappedRunAsWritten(t: seq<Slot>, hs: seq<Hint>, data: seq<Byte>)
    requires |t| == 3 && IsFree(t[0]) && !IsFree(t[1]) && IsFree(t[2])
    requires |hs| == HintSlots && hs[0] == At(2)
    ensures ScanAsWritten(t, 2, hs, data).Some? && ScanAsWritten(t, 2, hs, data).value.found == Some(2)
    ensures !FreeWindow(t, 2, 2)
    ensures Scan(t, 2, hs).found == None
    ensures forall s :: 0 <= s < 3 ==> !FreeWindow(t, s, 2)
  {
    assert ScanStart(hs, 3) == 2;
    assert ScanFrom(t, 2, hs, 2, 0, 0, 0, false) == ScanFrom(t, 2, hs, 0, 1, 1, 2, false);
    assert !FreeWindow(t, 0, 2) by {
      assert !IsFree(t[1]);
    }
    assert !FreeWindow(t, 1, 2) by {
      assert !IsFree(t[1]);
    }
  }

  /** A free run that ends at the last slot while slot 0 is occupied does
      not wrap: the code records it when it finds slot 0 occupied, and the
      corrected scan records the same entry. On [taken, free, taken, free]
      from slot 1, a two-block request fails in both, and both leave block 3
      in entry 1. */
  lemma TableEndRunRecorded(t: seq<Slot>, hs: seq<Hint>, data: seq<Byte>)
    requires |t| == 4 && !IsFree(t[0]) && IsFree(t[1]) && !IsFree(t[2]) && IsFree(t[3])
    requires |hs| == HintSlots && hs[0] == At(1)
    ensures ScanAsWritten(t, 2, hs, data).Some?
    ensures ScanAsWritten(t, 2, hs, data).value.found == None && ScanAsWritten(t, 2, hs, data).value.hints[1] == At(3)
    ensures Scan(t, 2, hs) == ScanAsWritten(t, 2, hs, data).value
  {
    var hs1 := hs[1 := At(1)];
    var hs3 := hs1[1 := At(3)];
    assert ScanStart(hs, 4) == 1;
    assert ScanFrom(t, 2, hs, 1, 0, 0, 0, false) == ScanFrom(t, 2, hs1, 3, 2, 0, 1, false) by {
      assert ScanFrom(t, 2, hs, 1, 0, 0, 0, false) == ScanFrom(t, 2, hs, 2, 1, 1, 1, false);
    }
    assert ScanFrom(t, 2, hs1, 3, 2, 0, 1, false) == ScanOutcome(None, hs3) by {
      assert ScanFrom(t, 2, hs1, 3, 2, 0, 1, false) == ScanFrom(t, 2, hs1, 0, 3, 1, 3, false);
    }
    assert ScanFrom(t, 2, hs, 1, 0, 0, 0, true) == ScanFrom(t, 2, hs1, 3, 2, 0, 1, true) by {
      assert ScanFrom(t, 2, hs, 1, 0, 0, 0, true) == ScanFrom(t, 2, hs, 2, 1, 1, 1, true);
    }
    assert ScanFrom(t, 2, hs1, 3, 2, 0, 1, true) == ScanOutcome(None, hs3) by {
      assert WrapRecord(t, hs1, 1, 3) == hs3;
      assert ScanFrom(t, 2, hs1, 3, 2, 0, 1, true) == ScanFrom(t, 2, hs3, 0, 3, 0, 3, true);
    }
  }

  // ---------------------------------------------------------------------
  // The index check of free and heap-size (mem.c:92-96, mem.c:175-181)
  // ---------------------------------------------------------------------

  /** The index test of mem_get_heap_size and mem_free as written: index 0
      is refused and index blocksNum, one past the table, is accepted. */
  predicate IndexAcceptedAsWritten(n: nat, i: nat)
  {
    !(i == 0 || i > n)
  }

  /** mem_free as written, on an address at or after the storage start, with
      the storage bytes `data`. Index blocksNum is accepted, and its record
      is the first four bytes of block 0 (mem.c:108-110), whose last byte c
      the code takes for a run length: it stores blocksNum as hint c when
      c < 16, zeroes the first 4c bytes of block storage and adds c to the
      free count. Undefined only when those bytes reach past the buffer. */
  function FreeAsWritten(h: Heap, data: seq<Byte>, addr: nat): (r: Outcome)
    requires Valid(h) && |data| == h.blocksNum * h.blockLength && addr >= h.start
    ensures !IndexAcceptedAsWritten(h.blocksNum, IndexOf(h, addr)) ==> r == Done(h, data)
    ensures 0 < IndexOf(h, addr) < h.blocksNum ==> r == Done(Free(h, addr), data)
    ensures IndexOf(h, addr) == h.blocksNum ==>
              (r.Done? <==> SlotRecordSize <= |data| && SlotRecordSize * data[3] <= |data|)
    ensures IndexOf(h, addr) == h.blocksNum && r.Done? ==>
              var c := data[3];
              && r.heap == h.(hints := if c < HintSlots then h.hints[c := At(h.blocksNum)] else h.hints,
                              freeSlotsNum := h.freeSlotsNum + c)
              && |r.data| == |data|
              && forall x :: 0 <= x < |data| ==> r.data[x] == if x < SlotRecordSize * c then 0 else data[x]
  {
    var i := IndexOf(h, addr);
    if !IndexAcceptedAsWritten(h.blocksNum, i) then Done(h, data)
    else if i < h.blocksNum then Done(Free(h, addr), data)
    else
      match RecordPastTable(data, h.blocksNum, i)
      case None => Undefined
      case Some(s) =>
        var c := s.count as nat;
        if SlotRecordSize * c > |data| then Undefined
        else
          Done(h.(hints := if c < HintSlots then h.hints[c := At(i)] else h.hints,
                  freeSlotsNum := h.freeSlotsNum + c),
               seq(|data|, x requires 0 <= x < |data| => if x < SlotRecordSize * c then 0 else data[x]))
  }

  /** The corrected test accepts exactly the blocks of the table. */
  lemma ValidIndexIff(h: Heap, i: nat)
    requires Shaped(h)
    ensures ValidIndex(h, AddrOf(h, i)) <==> i < h.blocksNum
    ensures IndexAcceptedAsWritten(h.blocksNum, i) <==> 0 < i <= h.blocksNum
  {
    AddrRoundTrip(h, i);
  }

  /** The first one-block request on the fresh heap is served at block 0
      from the seeded hint; the free as written ignores that address, so
      the block leaks and the free size stays at 48 of 64 bytes. The
      corrected free returns the block. */
  lemma FirstBlockLeaksAsWritten(base: nat, data: seq<Byte>)
    requires |data| == 64
    ensures var r := Alloc(Fresh(base), 16);
            && r.addr == Some(base + 16)
            && Valid(r.heap)
            && FreeAsWritten(r.heap, data, base + 16) == Done(r.heap, data)
            && GetFreeSize(r.heap) == 48
            && GetFreeSize(Free(r.heap, base + 16)) == 64
    ensures IndexAcceptedAsWritten(4, 4)
  {
    var h := Fresh(base);
    var r := SingleFromHint(h, 0);
    AllocKeepsValid(h, 16);
    assert IndexOf(r.heap, base + 16) == 0;
    AllocFreeRoundTrip(h, 16);
  }

  // ---------------------------------------------------------------------
  // The 8-bit run length (inc/mem.h:50-54, mem.c:158)
  // ---------------------------------------------------------------------

  /** The run length mem_alloc stores as written: the block count truncated
      to the 8-bit count field. */
  function StoredCountAsWritten(m: nat): (c: Byte)
    ensures m <= MaxCount ==> c == m
    ensures c < m ==> m - c >= 0x100
  {
    m % 0x100
  }

  /** The alloc commit as written (mem.c:158-164): the head records the
      block count truncated to 8 bits, then the m slots are tagged. Up to 255
      blocks it is the corrected commit. */
  function CommitAsWritten(t: seq<Slot>, s: nat, m: nat, id: nat): (t': seq<Slot>)
    requires 1 <= m && s + m <= |t|
    ensures |t'| == |t|
    ensures t'[s].count == StoredCountAsWritten(m)
    ensures forall j :: s <= j < s + m ==> GetSlotId(t'[j]) == id % MaxSlotId
    ensures forall j :: 0 <= j < |t| && !(s <= j < s + m) ==> t'[j] == t[j]
    ensures m <= MaxCount ==> t' == Commit(t, s, m, id)
  {
    var t1 := t[s := t[s].(count := StoredCountAsWritten(m))];
    seq(|t|, j requires 0 <= j < |t| => if s <= j < s + m then SetSlotId(t1[j], id) else t1[j])
  }

  /** A run of 256 one-byte blocks as written, at block 1 of a 257-block
      heap, an index the as-written test accepts: every block of the run is
      tagged, but the head records length 0, so heap-size reports no
      allocation at its address and the memset of free clears none of its
      blocks. The corrected alloc refuses the request and changes nothing. */
  lemma RunLengthTruncated(h: Heap)
    requires Valid(h) && h.blockLength == 1 && h.blocksNum == 257
    ensures IndexAcceptedAsWritten(h.blocksNum, 1)
    ensures var t := CommitAsWritten(h.table, 1, 256, h.slotId);
            && (forall j :: 1 <= j < 257 ==> !IsFree(t[j]))
            && t[1].count == 0
            && GetHeapSize(h.(table := t), h.start + 1) == 0
            && Release(t, 1) == t
    ensures Alloc(h, 256) == AllocResult(h, None)
  {
    var t := CommitAsWritten(h.table, 1, 256, h.slotId);
    assert CalcBlocks(1, 256) == 256;
    assert IndexOf(h.(table := t), h.start + 1) == 1;
    forall j | 1 <= j < 257
      ensures !IsFree(t[j])
    {
      assert GetSlotId(t[j]) == h.slotId;
    }
  }

  // ---------------------------------------------------------------------
  // mem_realloc (mem.c:191-200)
  // ---------------------------------------------------------------------

  /** Copy ranges [from, from + len) and [to, to + len) that share a byte,
      for which memcpy is undefined. */
  predicate Overlap(from: int, to: int, len: nat)
  {
    from < to + len && to < from + len
  }

  /** mem_realloc as written (index checks corrected): allocate first, then
      read the old size from the updated table, return if it is 0, copy the
      whole old size to the new block and free the old one. The copy is
      undefined when it goes through a NULL block, past the storage area, or
      between overlapping ranges. */
  function ReallocAsWritten(h: Heap, data: seq<Byte>, addr: nat, size: nat): (r: Outcome)
    requires Valid(h) && |data| == h.blocksNum * h.blockLength && size >= 1
    ensures r.Done? ==> |r.data| == |data| && r.heap.blocksNum == h.blocksNum && |r.heap.table| == |h.table|
    ensures GetHeapSize(Alloc(h, size).heap, addr) == 0 ==> r == Done(Alloc(h, size).heap, data)
    ensures GetHeapSize(Alloc(h, size).heap, addr) > 0 && Alloc(h, size).addr.None? ==> r == Undefined
    ensures var a := Alloc(h, size);
            var oldSize := GetHeapSize(a.heap, addr);
            oldSize > 0 && a.addr.Some? && Overlap(AddrOf(a.heap, IndexOf(a.heap, addr)), a.addr.value, oldSize) ==> r == Undefined
  {
    var a := Alloc(h, size);
    AllocKeepsValid(h, size);
    ReallocTail(a.heap, data, addr, a.addr)
  }

  /** mem_realloc as written once its alloc has left the heap `h` and
      returned `to`, None for NULL. */
  function ReallocTail(h: Heap, data: seq<Byte>, addr: nat, to: Option<nat>): (r: Outcome)
    requires Valid(h) && |data| == h.blocksNum * h.blockLength
    ensures r.Done? ==> |r.data| == |data| && r.heap.blocksNum == h.blocksNum && |r.heap.table| == |h.table|
    ensures GetHeapSize(h, addr) == 0 ==> r == Done(h, data)
    ensures GetHeapSize(h, addr) > 0 && to.None? ==> r == Undefined
    ensures var oldSize := GetHeapSize(h, addr);
            oldSize > 0 && to.Some? && Overlap(AddrOf(h, IndexOf(h, addr)), to.value, oldSize) ==> r == Undefined
  {
    var oldSize := GetHeapSize(h, addr);
    if oldSize == 0 then Done(h, data)
    else if to.None? || to.value < h.start || to.value - h.start + oldSize > |data| then Undefined
    else if Overlap(AddrOf(h, IndexOf(h, addr)), to.value, oldSize) then Undefined
    else CopyWholeRunAndFree(h, data, addr, to.value - h.start)
  }

  /** The tail of mem_realloc as written: copy every byte of the old run to
      offset `to`, then free the old run. */
  function CopyWholeRunAndFree(h: Heap, data: seq<Byte>, addr: nat, to: nat): (r: Outcome)
    requires Valid(h) && |data| == h.blocksNum * h.blockLength
    requires GetHeapSize(h, addr) > 0 && to + GetHeapSize(h, addr) <= |data|
    ensures r.Done? && |r.data| == |data|
    ensures r.heap.blocksNum == h.blocksNum && |r.heap.table| == |h.table|
    ensures var i := IndexOf(h, addr);
            forall j :: 0 <= j < |h.table| && !(i <= j < i + h.table[i].count) ==> r.heap.table[j] == h.table[j]
    ensures IndexOf(h, addr) * h.blockLength + GetHeapSize(h, addr) <= |data|
    ensures forall x :: to <= x < to + GetHeapSize(h, addr) ==>
              r.data[x] == data[x - to + IndexOf(h, addr) * h.blockLength]
  {
    OldRunFits(h, addr);
    Done(Free(h, addr), CopyWithin(data, IndexOf(h, addr) * h.blockLength, to, GetHeapSize(h, addr)))
  }

  /** A 16-byte realloc of the two-block run at block 1 of a 3 x 16-byte
      heap whose block 0 is free, with hint 1 naming block 0: the new block
      is block 0, and the copy as written moves all 32 old bytes from offset
      16 to offset 0, two ranges that overlap, so memcpy is undefined. The
      corrected realloc copies 16 bytes, block 1's first half to block 0. */
  lemma OverlappingCopyAsWritten(h: Heap, data: seq<Byte>)
    requires Valid(h) && h.blocksNum == 3 && h.blockLength == 16 && |data| == 48
    requires IsFree(h.table[0]) && h.table[1].count == 2
    requires h.hints[0] == Unassigned && h.hints[1] == At(0)
    ensures ReallocAsWritten(h, data, h.start + 16, 16) == Undefined
    ensures var c := Realloc(h, data, h.start + 16, 16);
            && c.addr == Some(h.start)
            && (forall x :: 0 <= x < 16 ==> c.data[x] == data[x + 16])
            && (forall x {:trigger c.data[x]} :: 16 <= x < 48 ==> c.data[x] == data[x])
  {
    var a := Alloc(h, 16);
    assert CalcBlocks(16, 16) == 1;
    assert TakeHint(h.hints, 1).candidate == Some(0);
    assert FreeWindow(h.table, 0, 1);
    assert IndexOf(h, h.start) == 0;
    assert a.addr == Some(h.start);
    assert IndexOf(h, h.start + 16) == 1;
    assert a.heap.table[1] == h.table[1];
    assert GetHeapSize(a.heap, h.start + 16) == 32;
    assert GetHeapSize(h, h.start + 16) == 32;
    ReallocCopies(h, data, h.start + 16, 16);
  }

  /** The bytes of a live run lie inside the storage area. */
  lemma OldRunFits(h: Heap, addr: nat)
    requires Valid(h) && GetHeapSize(h, addr) > 0
    ensures IndexOf(h, addr) * h.blockLength + GetHeapSize(h, addr) <= h.blocksNum * h.blockLength
  {
    HeapSizeIsLiveRun(h, addr);
    RunFits(IndexOf(h, addr), h.table[IndexOf(h, addr)].count, h.blocksNum, h.blockLength);
  }

  /** Shrinking the two-block run at block 2 of the four-block heap to 16
      bytes: the new one-block run is block 0, but the copy as written moves
      all 32 old bytes, so the free block 1 is overwritten with the second
      half of the old run. The corrected realloc copies 16 bytes and leaves
      block 1 alone. */
  lemma ShrinkOverwritesAsWritten(base: nat, data: seq<Byte>) returns (h: Heap, w: Outcome, c: ReallocResult)
    requires |data| == 64
    ensures Alloc(Fresh(base), 20) == AllocResult(h, Some(base + 48)) && Valid(h)
    ensures w == ReallocAsWritten(h, data, base + 48, 16) && w.Done?
    ensures IsFree(w.heap.table[1])
    ensures forall x :: 16 <= x < 32 ==> w.data[x] == data[x + 32]
    ensures c == Realloc(h, data, base + 48, 16) && c.addr == Some(base + 16)
    ensures forall x {:trigger c.data[x]} :: 16 <= x < 64 ==> c.data[x] == data[x]
  {
    var r := FreshTwoBlockRequest(base);
    h := r.heap;
    w := ShrinkAsWritten(h, data);
    c := ShrinkCorrected(h, data);
  }

  /** The as-written half of that shrink, on any heap laid out as after the
      20-byte request: the copy reaches free block 1. */
  lemma ShrinkAsWritten(h: Heap, data: seq<Byte>) returns (w: Outcome)
    requires Valid(h) && h.blocksNum == 4 && h.blockLength == 16 && |data| == 64
    requires forall i :: 0 <= i < 4 ==> (IsFree(h.table[i]) <==> i < 2)
    requires h.table[2].count == 2 && h.hints[0] == At(0)
    ensures w == ReallocAsWritten(h, data, h.start + 32, 16) && w.Done?
    ensures IsFree(w.heap.table[1])
    ensures forall x :: 16 <= x < 32 ==> w.data[x] == data[x + 32]
  {
    var a := ShrinkTarget(h);
    assert IndexOf(a.heap, h.start + 32) == 2;
    assert GetHeapSize(a.heap, h.start + 32) == 32 by {
      assert a.heap.table[2] == h.table[2];
    }
    w := ReallocAsWritten(h, data, h.start + 32, 16);
    assert w == CopyWholeRunAndFree(a.heap, data, h.start + 32, 0);
  }

  /** The corrected half of that shrink: the new run is block 0 and only its
      16 bytes change. */
  lemma ShrinkCorrected(h: Heap, data: seq<Byte>) returns (c: ReallocResult)
    requires Valid(h) && h.blocksNum == 4 && h.blockLength == 16 && |data| == 64
    requires forall i :: 0 <= i < 4 ==> (IsFree(h.table[i]) <==> i < 2)
    requires h.table[2].count == 2 && h.hints[0] == At(0)
    ensures c == Realloc(h, data, h.start + 32, 16) && c.addr == Some(h.start)
    ensures forall x {:trigger c.data[x]} :: 16 <= x < 64 ==> c.data[x] == data[x]
  {
    var a := ShrinkTargetAddr(h);
    assert IndexOf(h, h.start + 32) == 2;
    assert GetHeapSize(h, h.start + 32) == 32;
    c := Realloc(h, data, h.start + 32, 16);
    ReallocCopies(h, data, h.start + 32, 16);
  }

  /** The one-block allocation inside that shrink: block 0 from hint 0. */
  lemma ShrinkTarget(h: Heap) returns (a: AllocResult)
    requires Valid(h) && h.blocksNum == 4 && h.blockLength == 16
    requires forall i :: 0 <= i < 4 ==> (IsFree(h.table[i]) <==> i < 2)
    requires h.table[2].count == 2 && h.hints[0] == At(0)
    ensures a == Alloc(h, 16) && a.addr == Some(h.start) && Valid(a.heap)
    ensures a.heap.table[1] == h.table[1] && a.heap.table[2] == h.table[2]
    ensures a.heap.blocksNum == 4 && a.heap.blockLength == 16 && a.heap.start == h.start
  {
    a := ShrinkTargetAddr(h);
    AllocKeepsValid(h, 16);
  }

  /** Where that one-block allocation lands, without the heap it leaves. */
  lemma ShrinkTargetAddr(h: Heap) returns (a: AllocResult)
    requires Valid(h) && h.blocksNum == 4 && h.blockLength == 16
    requires forall i :: 0 <= i < 4 ==> (IsFree(h.table[i]) <==> i < 2)
    requires h.hints[0] == At(0)
    ensures a == Alloc(h, 16) && a.addr == Some(h.start)
    ensures a.heap.table[1] == h.table[1] && a.heap.table[2] == h.table[2]
  {
    a := Alloc(h, 16);
    assert CalcBlocks(16, 16) == 1;
    assert TakeHint(h.hints, 1).candidate == Some(0);
    assert FreeWindow(h.table, 0, 1);
    assert IndexOf(h, h.start) == 0;
  }

  /** Reallocating from an address that holds no run (free block 3 of the
      fresh heap): the realloc as written has already allocated a block it
      never hands back, so 16 bytes are lost; the corrected realloc refuses
      the address and changes nothing. */
  lemma InvalidAddressLeaksAsWritten(base: nat, data: seq<Byte>)
    requires |data| == 64
    ensures var h := Fresh(base);
            && ReallocAsWritten(h, data, base + 64, 16).Done?
            && GetFreeSize(ReallocAsWritten(h, data, base + 64, 16).heap) == 48
            && Realloc(h, data, base + 64, 16) == ReallocResult(h, data, None)
  {
    var h := Fresh(base);
    var a := SingleFromHint(h, 0);
    assert IndexOf(h, base + 64) == 3;
    assert IndexOf(a.heap, base + 64) == 3;
    assert a.heap.table[3] == h.table[3];
    assert GetHeapSize(a.heap, base + 64) == 0;
    assert GetHeapSize(h, base + 64) == 0;
  }
}

=== FILE: free_run_search.dfy ===
/** The free-run search `mem_find_free_slot` (mem.c:41-88).

    The scan walks the table circularly from a start index, counting runs of
    free slots. It succeeds at the start of the first run that reaches `m`
    slots, and fails once it has inspected every slot. A too-short free run
    that ends at an occupied slot is remembered in the hint cache under its
    length (lengths 1..15, last one wins).

    `ScanFrom` is the reference definition, one inspected slot per call. Its
    flag `wrapEndsRun` selects the corrected behaviour: as written, a run may
    continue from the last slot of the table to slot 0, although a run can
    only be tagged as one linear range; corrected, reaching the table end
    ends the run. The run is still recorded when slot 0 is occupied, where
    the code records it too. `FindFreeSlot` is the loop form of the
    corrected scan. */
module FreeRunSearch {
  import opened MemLayout
  import opened Options
  import opened SlotTable
  import opened HintCache

  /** `iter++; iter %= blocks_num` for an index inside the table. */
  function Next(iter: nat, n: nat): (r: nat)
    requires iter < n
    ensures r < n && r == (iter + 1) % n
  {
    if iter + 1 == n then
      assert n % n == 0;
      0
    else
      assert (iter + 1) / n == 0;
      iter + 1
  }

  datatype ScanOutcome = ScanOutcome(found: Option<nat>, hints: seq<Hint>)

  /** What the corrected scan records when a free run of k slots starting at
      `s` reaches the last slot: the code records it when it finds slot 0
      occupied, and so does the corrected scan; when slot 0 is free the code
      carries the run on across the table end, and the corrected scan drops
      it. */
  function WrapRecord(t: seq<Slot>, hs: seq<Hint>, k: nat, s: nat): (r: seq<Hint>)
    requires 0 < |t| && |hs| == HintSlots
    ensures |r| == HintSlots
  {
    if !IsFree(t[0]) && 0 < k < HintSlots then hs[k := At(s)] else hs
  }

  /** One inspection of slot `iter`. `inspected` counts the slots already
      passed, `run` the length of the free run ending just before `iter`,
      which began at `start`. */
  function ScanFrom(t: seq<Slot>, m: nat, hs: seq<Hint>, iter: nat, inspected: nat, run: nat, start: nat,
                    wrapEndsRun: bool): (r: ScanOutcome)
    requires iter < |t| && inspected < |t| && |hs| == HintSlots
    ensures |r.hints| == HintSlots
    decreases |t| - inspected
  {
    var n := |t|;
    if IsFree(t[iter]) then
      var start' := if run == 0 then iter else start;
      if run + 1 == m then ScanOutcome(Some(start'), hs)
      else if inspected + 1 == n then ScanOutcome(None, hs)
      else if wrapEndsRun && iter + 1 == n then
        ScanFrom(t, m, WrapRecord(t, hs, run + 1, start'), 0, inspected + 1, 0, start', wrapEndsRun)
      else ScanFrom(t, m, hs, Next(iter, n), inspected + 1, run + 1, start', wrapEndsRun)
    else
      var hs' := if 0 < run < HintSlots then hs[run := At(start)] else hs;
      if inspected + 1 == n then ScanOutcome(None, hs')
      else ScanFrom(t, m, hs', Next(iter, n), inspected + 1, 0, start, wrapEndsRun)
  }

  /** The corrected scan as mem_alloc calls it, from the start hint, for a
      request of at least one block (the model's alloc takes sizes of at
      least one byte). It returns exactly the circular first fit from its
      start. The hints it leaves are those of every run it passes before it
      stops, first in [start, n) and then in [0, start), the last write
      winning; each written entry records a free run that an occupied slot
      ends. */
  function Scan(t: seq<Slot>, m: nat, hs: seq<Hint>): (r: ScanOutcome)
    requires 0 < |t| && 1 <= m && |hs| == HintSlots
    ensures r.found == CircularFirstFit(t, m, ScanStart(hs, |t|))
    ensures r.hints == PassedRunHints(t, m, hs)
    ensures HintsSound(t, hs, r.hints)
  {
    var p := ScanStart(hs, |t|);
    ScanFromFirstFit(t, m, hs, p, p, 0, 0, 0);
    ScanFromHintsSound(t, m, hs, p, 0, 0, 0);
    ScanFromRecords(t, m, hs, p, p, 0, 0, 0);
    ScanFrom(t, m, hs, p, 0, 0, 0, true)
  }

  /** The least s in [lo, hi - m] whose window [s, s + m) is free. */
  function FirstFit(t: seq<Slot>, m: nat, lo: nat, hi: nat): (r: Option<nat>)
    requires hi <= |t|
    ensures r.Some? ==> lo <= r.value && r.value + m <= hi && FreeWindow(t, r.value, m)
    decreases hi - lo
  {
    if lo + m > hi then None
    else if FreeWindow(t, lo, m) then Some(lo)
    else FirstFit(t, m, lo + 1, hi)
  }

  /** No free window in [lo, hi) starts before the one FirstFit returns, and
      None means there is none at all. */
  lemma {:induction false} FirstFitIsFirst(t: seq<Slot>, m: nat, lo: nat, hi: nat)
    requires hi <= |t|
    ensures var r := FirstFit(t, m, lo, hi);
            forall s :: lo <= s && s + m <= hi && (r.None? || s < r.value) ==> !FreeWindow(t, s, m)
    decreases hi - lo
  {
    if lo + m <= hi && !FreeWindow(t, lo, m) {
      FirstFitIsFirst(t, m, lo + 1, hi);
    }
  }

  /** What a scan started at `p` finds: the first fit in [p, n), else the
      first fit in [0, p). */
  function CircularFirstFit(t: seq<Slot>, m: nat, p: nat): (r: Option<nat>)
    requires p <= |t|
    ensures r.Some? ==> FreeWindow(t, r.value, m) && !(r.value < p < r.value + m)
    ensures r.None? ==> forall s: nat :: FreeWindow(t, s, m) ==> s < p < s + m
  {
    FirstFitIsFirst(t, m, p, |t|);
    FirstFitIsFirst(t, m, 0, p);
    Either(FirstFit(t, m, p, |t|), FirstFit(t, m, 0, p))
  }

  /** Starting points in [lo, lo2) that are not free windows can be skipped. */
  lemma {:induction false} FirstFitSkip(t: seq<Slot>, m: nat, lo: nat, lo2: nat, hi: nat)
    requires lo <= lo2 && hi <= |t|
    requires forall s :: lo <= s < lo2 ==> !FreeWindow(t, s, m)
    ensures FirstFit(t, m, lo, hi) == FirstFit(t, m, lo2, hi)
    decreases lo2 - lo
  {
    if lo < lo2 && lo + m <= hi {
      FirstFitSkip(t, m, lo + 1, lo2, hi);
    }
  }

  /** An entry the scan writes: a free run [i, i + k) inside the table,
      followed by an occupied slot, which is slot 0 when the run reaches the
      table end. */
  ghost predicate RecordedRun(t: seq<Slot>, h: Hint, k: nat)
  {
    && 1 <= k && h.At? && FreeWindow(t, h.index, k)
    && !IsFree(t[if h.index + k < |t| then h.index + k else 0])
  }

  /** Every entry of `hs'` is unchanged from `hs` or records a run. */
  ghost predicate HintsSound(t: seq<Slot>, hs: seq<Hint>, hs': seq<Hint>)
  {
    |hs'| == |hs| && forall k :: 0 <= k < |hs'| ==> hs'[k] == hs[k] || RecordedRun(t, hs'[k], k)
  }

  /** The state of the corrected scan started at `p`: in the first phase
      it walks [p, n), in the second [0, p); the current free run lies
      inside the current phase and is shorter than `m`. */
  ghost predicate ScanState(t: seq<Slot>, m: nat, p: nat, iter: nat, inspected: nat, run: nat, start: nat)
  {
    && p < |t| && iter < |t| && 1 <= m && run < m && run <= iter
    && (run > 0 ==> start + run == iter)
    && (forall k :: iter - run <= k < iter ==> IsFree(t[k]))
    && ((p <= iter && inspected == iter - p && p <= iter - run)
        || (iter < p && inspected == |t| - p + iter))
  }

  /** The answer the rest of a scan in state (iter, run) must give. */
  ghost function Remaining(t: seq<Slot>, m: nat, p: nat, iter: nat, run: nat): Option<nat>
    requires run <= iter < |t| && p <= |t|
  {
    if p <= iter then Either(FirstFit(t, m, iter - run, |t|), FirstFit(t, m, 0, p))
    else FirstFit(t, m, iter - run, p)
  }

  /** A free slot that completes the run: the run's window is the answer. */
  lemma RunCompletes(t: seq<Slot>, m: nat, p: nat, iter: nat, inspected: nat, run: nat, start: nat)
    requires ScanState(t, m, p, iter, inspected, run, start) && IsFree(t[iter]) && run + 1 == m
    ensures Remaining(t, m, p, iter, run) == Some(iter - run)
  {
    assert FreeWindow(t, iter - run, m);
  }

  /** A free slot on which the inspection budget runs out: no fit is left. */
  lemma BudgetEndsOnFree(t: seq<Slot>, m: nat, p: nat, iter: nat, inspected: nat, run: nat, start: nat)
    requires ScanState(t, m, p, iter, inspected, run, start) && IsFree(t[iter]) && run + 1 != m
    requires inspected + 1 == |t|
    ensures Remaining(t, m, p, iter, run) == None
  {
  }

  /** A free slot that extends the run inside its phase. */
  lemma RunExtends(t: seq<Slot>, m: nat, p: nat, iter: nat, inspected: nat, run: nat, start: nat)
    requires ScanState(t, m, p, iter, inspected, run, start) && IsFree(t[iter]) && run + 1 != m
    requires inspected + 1 != |t| && iter + 1 != |t|
    ensures ScanState(t, m, p, iter + 1, inspected + 1, run + 1, if run == 0 then iter else start)
    ensures Remaining(t, m, p, iter + 1, run + 1) == Remaining(t, m, p, iter, run)
  {
  }

  /** A free last slot: the run ends at the table end and the second phase
      starts at slot 0. */
  lemma RunHitsTableEnd(t: seq<Slot>, m: nat, p: nat, iter: nat, inspected: nat, run: nat, start: nat)
    requires ScanState(t, m, p, iter, inspected, run, start) && IsFree(t[iter]) && run + 1 != m
    requires inspected + 1 != |t| && iter + 1 == |t|
    ensures ScanState(t, m, p, 0, inspected + 1, 0, if run == 0 then iter else start)
    ensures Remaining(t, m, p, 0, 0) == Remaining(t, m, p, iter, run)
  {
    assert FirstFit(t, m, iter - run, |t|) == None;
  }

  /** An occupied slot ends the run: no window starting in the run fits. */
  lemma OccupiedSkips(t: seq<Slot>, m: nat, p: nat, iter: nat, inspected: nat, run: nat, start: nat)
    requires ScanState(t, m, p, iter, inspected, run, start) && !IsFree(t[iter])
    ensures Remaining(t, m, p, iter, run)
            == if p <= iter then Either(FirstFit(t, m, iter + 1, |t|), FirstFit(t, m, 0, p))
               else FirstFit(t, m, iter + 1, p)
  {
    var hi := if p <= iter then |t| else p;
    forall s | iter - run <= s < iter + 1
      ensures !FreeWindow(t, s, m)
    {
      assert s <= iter < s + m;
    }
    FirstFitSkip(t, m, iter - run, iter + 1, hi);
  }

  lemma OccupiedAdvances(t: seq<Slot>, m: nat, p: nat, iter: nat, inspected: nat, run: nat, start: nat)
    requires ScanState(t, m, p, iter, inspected, run, start) && !IsFree(t[iter])
    requires inspected + 1 < |t|
    ensures ScanState(t, m, p, Next(iter, |t|), inspected + 1, 0, start)
    ensures Remaining(t, m, p, Next(iter, |t|), 0) == Remaining(t, m, p, iter, run)
  {
    OccupiedSkips(t, m, p, iter, inspected, run, start);
    if iter + 1 == |t| {
      assert FirstFit(t, m, |t|, |t|) == None;
    }
  }

  lemma BudgetEndsOnOccupied(t: seq<Slot>, m: nat, p: nat, iter: nat, inspected: nat, run: nat, start: nat)
    requires ScanState(t, m, p, iter, inspected, run, start) && !IsFree(t[iter])
    requires inspected + 1 == |t|
    ensures Remaining(t, m, p, iter, run) == None
  {
    OccupiedSkips(t, m, p, iter, inspected, run, start);
  }

  /** The corrected scan from any reachable state finds the remaining first
      fit. */
  lemma {:induction false} ScanFromFirstFit(t: seq<Slot>, m: nat, hs: seq<Hint>, p: nat, iter: nat,
                                           inspected: nat, run: nat, start: nat)
    requires |hs| == HintSlots && ScanState(t, m, p, iter, inspected, run, start)
    ensures ScanFrom(t, m, hs, iter, inspected, run, start, true).found == Remaining(t, m, p, iter, run)
    decreases |t| - inspected, 1
  {
    if IsFree(t[iter]) {
      FirstFitOnFree(t, m, hs, p, iter, inspected, run, start);
    } else {
      FirstFitOnOccupied(t, m, hs, p, iter, inspected, run, start);
    }
  }

  /** ScanFromFirstFit when slot `iter` is free: the run completes, the
      budget ends, or the run goes on (or restarts at the table's end). */
  lemma {:induction false} FirstFitOnFree(t: seq<Slot>, m: nat, hs: seq<Hint>, p: nat, iter: nat,
                                         inspected: nat, run: nat, start: nat)
    requires |hs| == HintSlots && ScanState(t, m, p, iter, inspected, run, start) && IsFree(t[iter])
    ensures ScanFrom(t, m, hs, iter, inspected, run, start, true).found == Remaining(t, m, p, iter, run)
    decreases |t| - inspected, 0
  {
    var n := |t|;
    var start' := if run == 0 then iter else start;
    if run + 1 == m {
      RunCompletes(t, m, p, iter, inspected, run, start);
    } else if inspected + 1 == n {
      BudgetEndsOnFree(t, m, p, iter, inspected, run, start);
    } else if iter + 1 == n {
      RunHitsTableEnd(t, m, p, iter, inspected, run, start);
      ScanFromFirstFit(t, m, WrapRecord(t, hs, run + 1, start'), p, 0, inspected + 1, 0, start');
    } else {
      RunExtends(t, m, p, iter, inspected, run, start);
      ScanFromFirstFit(t, m, hs, p, iter + 1, inspected + 1, run + 1, start');
    }
  }

  /** ScanFromFirstFit when slot `iter` is occupied: the run is cut, and the
      scan goes on unless the budget is spent. */
  lemma {:induction false} FirstFitOnOccupied(t: seq<Slot>, m: nat, hs: seq<Hint>, p: nat, iter: nat,
                                             inspected: nat, run: nat, start: nat)
    requires |hs| == HintSlots && ScanState(t, m, p, iter, inspected, run, start) && !IsFree(t[iter])
    ensures ScanFrom(t, m, hs, iter, inspected, run, start, true).found == Remaining(t, m, p, iter, run)
    decreases |t| - inspected, 0
  {
    var n := |t|;
    var hs' := if 0 < run < HintSlots then hs[run := At(start)] else hs;
    if inspected + 1 < n {
      OccupiedAdvances(t, m, p, iter, inspected, run, start);
      ScanFromFirstFit(t, m, hs', p, Next(iter, n), inspected + 1, 0, start);
    } else {
      BudgetEndsOnOccupied(t, m, p, iter, inspected, run, start);
    }
  }

  lemma HintsSoundTrans(t: seq<Slot>, a: seq<Hint>, b: seq<Hint>, c: seq<Hint>)
    requires HintsSound(t, a, b) && HintsSound(t, b, c)
    ensures HintsSound(t, a, c)
  {
  }

  /** Every hint the corrected scan writes records a free run that ends at
      an occupied slot. */
  lemma {:induction false} ScanFromHintsSound(t: seq<Slot>, m: nat, hs: seq<Hint>, iter: nat,
                                             inspected: nat, run: nat, start: nat)
    requires |hs| == HintSlots && iter < |t| && inspected < |t|
    requires run > 0 ==> start + run == iter && FreeWindow(t, start, run)
    ensures HintsSound(t, hs, ScanFrom(t, m, hs, iter, inspected, run, start, true).hints)
    decreases |t| - inspected
  {
    var n := |t|;
    var r := ScanFrom(t, m, hs, iter, inspected, run, start, true);
    if IsFree(t[iter]) {
      var start' := if run == 0 then iter else start;
      if run + 1 == m || inspected + 1 == n {
        assert r.hints == hs;
      } else if iter + 1 == n {
        var hs1 := WrapRecord(t, hs, run + 1, start');
        assert HintsSound(t, hs, hs1) by {
          if hs1 != hs {
            assert FreeWindow(t, start', run + 1);
            assert RecordedRun(t, hs1[run + 1], run + 1);
          }
        }
        assert r == ScanFrom(t, m, hs1, 0, inspected + 1, 0, start', true);
        ScanFromHintsSound(t, m, hs1, 0, inspected + 1, 0, start');
        HintsSoundTrans(t, hs, hs1, r.hints);
      } else {
        assert r == ScanFrom(t, m, hs, iter + 1, inspected + 1, run + 1, start', true);
        ScanFromHintsSound(t, m, hs, iter + 1, inspected + 1, run + 1, start');
      }
    } else {
      var hs' := if 0 < run < HintSlots then hs[run := At(start)] else hs;
      assert HintsSound(t, hs, hs') by {
        if 0 < run < HintSlots {
          assert RecordedRun(t, hs'[run], run);
        }
      }
      if inspected + 1 < n {
        assert r == ScanFrom(t, m, hs', Next(iter, n), inspected + 1, 0, start, true);
        ScanFromHintsSound(t, m, hs', Next(iter, n), inspected + 1, 0, start);
        HintsSoundTrans(t, hs, hs', r.hints);
      } else {
        assert r.hints == hs';
      }
    }
  }

  /** The length of the free run that ends just before slot `j`, counted back
      no further than `lo`: the run length the scan carries into `j` when its
      current pass began at `lo`. */
  function RunBefore(t: seq<Slot>, lo: nat, j: nat): (r: nat)
    requires j <= |t|
    ensures r <= j && (lo <= j ==> lo <= j - r)
    decreases j
  {
    if j > lo && IsFree(t[j - 1]) then RunBefore(t, lo, j - 1) + 1 else 0
  }

  /** The run RunBefore counts is free, and the slot before it is occupied
      unless the run reaches `lo`. */
  lemma {:induction false} RunBeforeIsRun(t: seq<Slot>, lo: nat, j: nat)
    requires j <= |t|
    ensures var r := RunBefore(t, lo, j);
            && (forall k :: j - r <= k < j ==> IsFree(t[k]))
            && (j - r > lo ==> !IsFree(t[j - r - 1]))
            && (lo <= j ==> lo <= j - r)
    decreases j
  {
    if j > lo && IsFree(t[j - 1]) {
      RunBeforeIsRun(t, lo, j - 1);
    }
  }

  /** Slot `j` is occupied and ends a free run of `k` slots, 1 <= k < 16, that
      began no earlier than `lo`: the scan writes the run's start into entry k
      when it reaches `j` (mem.c:78-81). */
  predicate Records(t: seq<Slot>, lo: nat, j: nat, k: nat)
    requires j < |t|
  {
    !IsFree(t[j]) && 0 < k < HintSlots && RunBefore(t, lo, j) == k
  }

  /** No slot of [from, to) records entry k. */
  predicate NoRecordIn(t: seq<Slot>, lo: nat, from: nat, to: nat, k: nat)
    requires to <= |t|
  {
    forall j :: from <= j < to ==> !Records(t, lo, j, k)
  }

  /** The hint cache after the scan inspects slot `j` of a pass that began
      at `lo`. */
  function Step(t: seq<Slot>, hs: seq<Hint>, lo: nat, j: nat): (r: seq<Hint>)
    requires j < |t| && |hs| == HintSlots
    ensures |r| == HintSlots
  {
    var k := RunBefore(t, lo, j);
    if Records(t, lo, j, k) then hs[k := At(j - k)] else hs
  }

  /** The hint cache after the scan inspects slots [from, to) of a pass that
      began at `lo`, one slot at a time. */
  function Recorded(t: seq<Slot>, hs: seq<Hint>, lo: nat, from: nat, to: nat): (r: seq<Hint>)
    requires to <= |t| && |hs| == HintSlots
    ensures |r| == HintSlots
    decreases if from <= to then to - from else 0
  {
    if from >= to then hs else Recorded(t, Step(t, hs, lo, from), lo, from + 1, to)
  }

  /** Last one wins: after slots [from, to), entry k holds the start of the
      last run of length k recorded there, and is untouched if there is
      none. */
  lemma RecordedLastWins(t: seq<Slot>, hs: seq<Hint>, lo: nat, from: nat, to: nat, k: nat)
    requires to <= |t| && |hs| == HintSlots && k < HintSlots
    ensures (forall j :: from <= j < to ==> !Records(t, lo, j, k)) ==> Recorded(t, hs, lo, from, to)[k] == hs[k]
    ensures forall j :: (from <= j < to && Records(t, lo, j, k) && (forall j' :: j < j' < to ==> !Records(t, lo, j', k)))
                        ==> Recorded(t, hs, lo, from, to)[k] == At(j - k)
  {
    if forall j :: from <= j < to ==> !Records(t, lo, j, k) {
      RecordedUntouched(t, hs, lo, from, to, k);
    }
    forall j | from <= j < to && Records(t, lo, j, k) && (forall j' :: j < j' < to ==> !Records(t, lo, j', k))
      ensures Recorded(t, hs, lo, from, to)[k] == At(j - k)
    {
      RecordedLast(t, hs, lo, from, to, k, j);
    }
  }

  /** An entry no inspected slot records is left as it was. */
  lemma {:induction false} RecordedUntouched(t: seq<Slot>, hs: seq<Hint>, lo: nat, from: nat, to: nat, k: nat)
    requires to <= |t| && |hs| == HintSlots && k < HintSlots
    requires NoRecordIn(t, lo, from, to, k)
    ensures Recorded(t, hs, lo, from, to)[k] == hs[k]
    decreases if from <= to then to - from else 0
  {
    if from < to {
      var hs' := Step(t, hs, lo, from);
      RecordedUntouched(t, hs', lo, from + 1, to, k);
      assert hs'[k] == hs[k];
    }
  }

  /** The last slot that records entry k decides it. */
  lemma {:induction false} RecordedLast(t: seq<Slot>, hs: seq<Hint>, lo: nat, from: nat, to: nat, k: nat, j: nat)
    requires to <= |t| && |hs| == HintSlots && k < HintSlots
    requires from <= j < to && Records(t, lo, j, k) && NoRecordIn(t, lo, j + 1, to, k)
    ensures Recorded(t, hs, lo, from, to)[k] == At(j - k)
    decreases if from <= to then to - from else 0
  {
    var hs' := Step(t, hs, lo, from);
    assert Recorded(t, hs, lo, from, to) == Recorded(t, hs', lo, from + 1, to);
    if j == from {
      assert hs'[k] == At(from - k);
      RecordedUntouched(t, hs', lo, from + 1, to, k);
    } else {
      RecordedLast(t, hs', lo, from + 1, to, k, j);
    }
  }

  /** A free slot records nothing. */
  lemma RecordedSkipFree(t: seq<Slot>, hs: seq<Hint>, lo: nat, from: nat, to: nat)
    requires from < |t| && to <= |t| && |hs| == HintSlots && IsFree(t[from])
    ensures Recorded(t, hs, lo, from, to) == Recorded(t, hs, lo, from + 1, to)
  {
    if from < to {
      assert Step(t, hs, lo, from) == hs;
    }
  }

  /** The hint cache when the first pass [p, n) reaches the table end and
      the scan goes on at slot 0: the free run that ends the table, counted
      back no further than p, is recorded when slot 0 is occupied. A scan
      started at slot 0 has no second pass and records nothing here. */
  function TableEndStep(t: seq<Slot>, hs: seq<Hint>, p: nat): (r: seq<Hint>)
    requires 0 < |t| && p <= |t| && |hs| == HintSlots
    ensures |r| == HintSlots
  {
    var k := RunBefore(t, p, |t|);
    if 0 < p then WrapRecord(t, hs, k, |t| - k) else hs
  }

  /** The hint cache a corrected scan started at `p` leaves: it passes the
      slots [p, n), then [0, p), and stops at the first fit or when the budget
      is spent; every occupied slot it passes records the run before it, and
      slot 0 also ends the run that reaches the table end. */
  ghost function PassedRunHints(t: seq<Slot>, m: nat, hs: seq<Hint>): seq<Hint>
    requires 0 < |t| && |hs| == HintSlots
  {
    var p := ScanStart(hs, |t|);
    var f := CircularFirstFit(t, m, p);
    if f.Some? && f.value >= p then Recorded(t, hs, p, p, f.value)
    else Recorded(t, TableEndStep(t, Recorded(t, hs, p, p, |t|), p), 0, 0, if f.Some? then f.value else p)
  }

  /** The hint cache the rest of a scan in state (iter, run) must leave. */
  ghost function RemainingHints(t: seq<Slot>, m: nat, p: nat, hs: seq<Hint>, iter: nat, run: nat): seq<Hint>
    requires run <= iter < |t| && p < |t| && |hs| == HintSlots
  {
    var f := Remaining(t, m, p, iter, run);
    if p <= iter then
      if f.Some? && f.value >= p then Recorded(t, hs, p, iter, f.value)
      else Recorded(t, TableEndStep(t, Recorded(t, hs, p, iter, |t|), p), 0, 0, if f.Some? then f.value else p)
    else Recorded(t, hs, 0, iter, if f.Some? then f.value else p)
  }

  lemma HintsRunCompletes(t: seq<Slot>, m: nat, p: nat, hs: seq<Hint>, iter: nat, inspected: nat, run: nat, start: nat)
    requires |hs| == HintSlots && ScanState(t, m, p, iter, inspected, run, start) && IsFree(t[iter]) && run + 1 == m
    ensures RemainingHints(t, m, p, hs, iter, run) == hs
  {
    RunCompletes(t, m, p, iter, inspected, run, start);
  }

  lemma HintsBudgetEndsOnFree(t: seq<Slot>, m: nat, p: nat, hs: seq<Hint>, iter: nat, inspected: nat, run: nat, start: nat)
    requires |hs| == HintSlots && ScanState(t, m, p, iter, inspected, run, start) && IsFree(t[iter]) && run + 1 != m
    requires inspected + 1 == |t|
    ensures RemainingHints(t, m, p, hs, iter, run) == hs
  {
    BudgetEndsOnFree(t, m, p, iter, inspected, run, start);
    RecordedSkipFree(t, hs, if p <= iter then p else 0, iter, if p <= iter then |t| else p);
  }

  lemma HintsRunHitsTableEnd(t: seq<Slot>, m: nat, p: nat, hs: seq<Hint>, iter: nat, inspected: nat, run: nat, start: nat)
    requires |hs| == HintSlots && ScanState(t, m, p, iter, inspected, run, start) && IsFree(t[iter]) && run + 1 != m
    requires inspected + 1 != |t| && iter + 1 == |t|
    ensures 0 < p
    ensures RemainingHints(t, m, p, TableEndStep(t, hs, p), 0, 0) == RemainingHints(t, m, p, hs, iter, run)
  {
    RunHitsTableEnd(t, m, p, iter, inspected, run, start);
    RecordedSkipFree(t, hs, p, iter, |t|);
  }

  lemma HintsRunExtends(t: seq<Slot>, m: nat, p: nat, hs: seq<Hint>, iter: nat, inspected: nat, run: nat, start: nat)
    requires |hs| == HintSlots && ScanState(t, m, p, iter, inspected, run, start) && IsFree(t[iter]) && run + 1 != m
    requires inspected + 1 != |t| && iter + 1 != |t|
    ensures (p <= iter) == (p <= iter + 1)
    ensures RemainingHints(t, m, p, hs, iter + 1, run + 1) == RemainingHints(t, m, p, hs, iter, run)
  {
    RunExtends(t, m, p, iter, inspected, run, start);
    var f := Remaining(t, m, p, iter, run);
    var lo := if p <= iter then p else 0;
    var to := if p <= iter then (if f.Some? && f.value >= p then f.value else |t|)
              else (if f.Some? then f.value else p);
    RecordedSkipFree(t, hs, lo, iter, to);
  }

  lemma HintsOccupiedAdvances(t: seq<Slot>, m: nat, p: nat, hs: seq<Hint>, iter: nat, inspected: nat, run: nat, start: nat)
    requires |hs| == HintSlots && ScanState(t, m, p, iter, inspected, run, start) && !IsFree(t[iter])
    requires inspected + 1 < |t|
    ensures Next(iter, |t|) == 0 || (p <= iter) == (p <= iter + 1)
    ensures RemainingHints(t, m, p, Step(t, hs, if p <= iter then p else 0, iter), Next(iter, |t|), 0)
            == RemainingHints(t, m, p, hs, iter, run)
  {
    OccupiedAdvances(t, m, p, iter, inspected, run, start);
    OccupiedSkips(t, m, p, iter, inspected, run, start);
    var n := |t|;
    var f := Remaining(t, m, p, iter, run);
    if p <= iter && iter + 1 < n {
      var hs' := Step(t, hs, p, iter);
      assert Remaining(t, m, p, iter + 1, 0) == f;
      if f.Some? && f.value >= p {
        assert Recorded(t, hs, p, iter, f.value) == Recorded(t, hs', p, iter + 1, f.value);
      } else {
        assert Recorded(t, hs, p, iter, n) == Recorded(t, hs', p, iter + 1, n);
      }
    } else if p <= iter {
      var hs' := Step(t, hs, p, iter);
      assert f == FirstFit(t, m, 0, p);
      assert Recorded(t, hs, p, iter, n) == hs';
      assert TableEndStep(t, hs', p) == hs';
    } else {
      var hs' := Step(t, hs, 0, iter);
      assert Remaining(t, m, p, iter + 1, 0) == f;
      var to := if f.Some? then f.value else p;
      assert Recorded(t, hs, 0, iter, to) == Recorded(t, hs', 0, iter + 1, to);
    }
  }

  lemma HintsBudgetEndsOnOccupied(t: seq<Slot>, m: nat, p: nat, hs: seq<Hint>, iter: nat, inspected: nat, run: nat, start: nat)
    requires |hs| == HintSlots && ScanState(t, m, p, iter, inspected, run, start) && !IsFree(t[iter])
    requires inspected + 1 == |t|
    ensures RemainingHints(t, m, p, hs, iter, run) == Step(t, hs, if p <= iter then p else 0, iter)
  {
    BudgetEndsOnOccupied(t, m, p, iter, inspected, run, start);
    var n := |t|;
    if p <= iter {
      assert p == 0 && iter + 1 == n;
      assert Recorded(t, hs, p, iter, n) == Recorded(t, Step(t, hs, p, iter), p, n, n);
    } else {
      assert iter + 1 == p;
      assert Recorded(t, hs, 0, iter, p) == Recorded(t, Step(t, hs, 0, iter), 0, p, p);
    }
  }

  /** The corrected scan from any reachable state leaves the hints of the
      runs it has yet to pass. */
  lemma {:induction false} ScanFromRecords(t: seq<Slot>, m: nat, hs: seq<Hint>, p: nat, iter: nat,
                                          inspected: nat, run: nat, start: nat)
    requires |hs| == HintSlots && ScanState(t, m, p, iter, inspected, run, start)
    requires run == RunBefore(t, if p <= iter then p else 0, iter)
    ensures ScanFrom(t, m, hs, iter, inspected, run, start, true).hints == RemainingHints(t, m, p, hs, iter, run)
    decreases |t| - inspected, 2
  {
    if IsFree(t[iter]) {
      ScanFromRecordsOnFree(t, m, hs, p, iter, inspected, run, start);
    } else if inspected + 1 < |t| {
      ScanFromRecordsOnOccupied(t, m, hs, p, iter, inspected, run, start);
    } else {
      RecordsAtBudgetEnd(t, m, hs, p, iter, inspected, run, start);
    }
  }

  /** The induction step of ScanFromRecords when the scan stands on a free slot. */
  lemma {:induction false} ScanFromRecordsOnFree(t: seq<Slot>, m: nat, hs: seq<Hint>, p: nat, iter: nat,
                                                inspected: nat, run: nat, start: nat)
    requires |hs| == HintSlots && ScanState(t, m, p, iter, inspected, run, start) && IsFree(t[iter])
    requires run == RunBefore(t, if p <= iter then p else 0, iter)
    ensures ScanFrom(t, m, hs, iter, inspected, run, start, true).hints == RemainingHints(t, m, p, hs, iter, run)
    decreases |t| - inspected, 1
  {
    var n := |t|;
    if run + 1 == m {
      HintsRunCompletes(t, m, p, hs, iter, inspected, run, start);
    } else if inspected + 1 == n {
      HintsBudgetEndsOnFree(t, m, p, hs, iter, inspected, run, start);
    } else if iter + 1 == n {
      ScanFromRecordsAtTableEnd(t, m, hs, p, iter, inspected, run, start);
    } else {
      var start' := if run == 0 then iter else start;
      RecordsOnFree(t, m, hs, p, iter, inspected, run, start, start');
      ScanFromRecords(t, m, hs, p, iter + 1, inspected + 1, run + 1, start');
    }
  }

  /** A free slot that ends the table: the run breaks and the pass wraps to slot 0. */
  lemma {:induction false} ScanFromRecordsAtTableEnd(t: seq<Slot>, m: nat, hs: seq<Hint>, p: nat, iter: nat,
                                                    inspected: nat, run: nat, start: nat)
    requires |hs| == HintSlots && ScanState(t, m, p, iter, inspected, run, start) && IsFree(t[iter])
    requires run == RunBefore(t, if p <= iter then p else 0, iter)
    requires run + 1 != m && inspected + 1 != |t| && iter + 1 == |t|
    ensures ScanFrom(t, m, hs, iter, inspected, run, start, true).hints == RemainingHints(t, m, p, hs, iter, run)
    decreases |t| - inspected, 0
  {
    RunHitsTableEnd(t, m, p, iter, inspected, run, start);
    var start' := if run == 0 then iter else start;
    ScanFromRecords(t, m, WrapRecord(t, hs, run + 1, start'), p, 0, inspected + 1, 0, start');
    RecordsAtTableEnd(t, m, hs, p, iter, inspected, run, start);
  }

  /** The induction step of ScanFromRecords when the scan stands on an occupied slot with budget left. */
  lemma {:induction false} ScanFromRecordsOnOccupied(t: seq<Slot>, m: nat, hs: seq<Hint>, p: nat, iter: nat,
                                                    inspected: nat, run: nat, start: nat)
    requires |hs| == HintSlots && ScanState(t, m, p, iter, inspected, run, start) && !IsFree(t[iter])
    requires run == RunBefore(t, if p <= iter then p else 0, iter)
    requires inspected + 1 < |t|
    ensures ScanFrom(t, m, hs, iter, inspected, run, start, true).hints == RemainingHints(t, m, p, hs, iter, run)
    decreases |t| - inspected, 0
  {
    OccupiedAdvances(t, m, p, iter, inspected, run, start);
    ScanFromRecords(t, m, Step(t, hs, if p <= iter then p else 0, iter), p, Next(iter, |t|), inspected + 1, 0, start);
    RecordsOnOccupied(t, m, hs, p, iter, inspected, run, start);
  }

  lemma RecordsAtTableEnd(t: seq<Slot>, m: nat, hs: seq<Hint>, p: nat, iter: nat, inspected: nat, run: nat, start: nat)
    requires |hs| == HintSlots && ScanState(t, m, p, iter, inspected, run, start) && IsFree(t[iter]) && run + 1 != m
    requires inspected + 1 != |t| && iter + 1 == |t|
    requires run == RunBefore(t, p, iter)
    requires var hs1 := WrapRecord(t, hs, run + 1, if run == 0 then iter else start);
             ScanFrom(t, m, hs1, 0, inspected + 1, 0, if run == 0 then iter else start, true).hints
             == RemainingHints(t, m, p, hs1, 0, 0)
    ensures ScanFrom(t, m, hs, iter, inspected, run, start, true).hints == RemainingHints(t, m, p, hs, iter, run)
  {
    HintsRunHitsTableEnd(t, m, p, hs, iter, inspected, run, start);
    RunBeforeExtends(t, p, iter);
    assert WrapRecord(t, hs, run + 1, if run == 0 then iter else start) == TableEndStep(t, hs, p);
  }

  /** A free slot inside the table moves the scan to the next slot with a
      longer run, and the hints there determine the hints here. */
  lemma RecordsOnFree(t: seq<Slot>, m: nat, hs: seq<Hint>, p: nat, iter: nat, inspected: nat, run: nat, start: nat,
                      start': nat)
    requires |hs| == HintSlots && ScanState(t, m, p, iter, inspected, run, start) && IsFree(t[iter]) && run + 1 != m
    requires inspected + 1 != |t| && iter + 1 != |t|
    requires run == RunBefore(t, if p <= iter then p else 0, iter)
    requires start' == if run == 0 then iter else start
    ensures ScanState(t, m, p, iter + 1, inspected + 1, run + 1, start')
    ensures run + 1 == RunBefore(t, if p <= iter + 1 then p else 0, iter + 1)
    ensures ScanFrom(t, m, hs, iter + 1, inspected + 1, run + 1, start', true).hints
            == RemainingHints(t, m, p, hs, iter + 1, run + 1)
            ==> ScanFrom(t, m, hs, iter, inspected, run, start, true).hints == RemainingHints(t, m, p, hs, iter, run)
  {
    RunExtends(t, m, p, iter, inspected, run, start);
    RunBeforeAdvances(t, m, p, iter, inspected, run, start);
    HintsRunExtends(t, m, p, hs, iter, inspected, run, start);
  }

  lemma RecordsOnOccupied(t: seq<Slot>, m: nat, hs: seq<Hint>, p: nat, iter: nat, inspected: nat, run: nat, start: nat)
    requires |hs| == HintSlots && ScanState(t, m, p, iter, inspected, run, start) && !IsFree(t[iter])
    requires run == RunBefore(t, if p <= iter then p else 0, iter)
    requires inspected + 1 < |t|
    requires var hs' := Step(t, hs, if p <= iter then p else 0, iter);
             ScanFrom(t, m, hs', Next(iter, |t|), inspected + 1, 0, start, true).hints
             == RemainingHints(t, m, p, hs', Next(iter, |t|), 0)
    ensures ScanFrom(t, m, hs, iter, inspected, run, start, true).hints == RemainingHints(t, m, p, hs, iter, run)
  {
    var hs' := if 0 < run < HintSlots then hs[run := At(start)] else hs;
    assert hs' == Step(t, hs, if p <= iter then p else 0, iter);
    HintsOccupiedAdvances(t, m, p, hs, iter, inspected, run, start);
  }

  lemma RecordsAtBudgetEnd(t: seq<Slot>, m: nat, hs: seq<Hint>, p: nat, iter: nat, inspected: nat, run: nat, start: nat)
    requires |hs| == HintSlots && ScanState(t, m, p, iter, inspected, run, start) && !IsFree(t[iter])
    requires run == RunBefore(t, if p <= iter then p else 0, iter)
    requires inspected + 1 == |t|
    ensures ScanFrom(t, m, hs, iter, inspected, run, start, true).hints == RemainingHints(t, m, p, hs, iter, run)
  {
    var hs' := if 0 < run < HintSlots then hs[run := At(start)] else hs;
    assert hs' == Step(t, hs, if p <= iter then p else 0, iter);
    HintsBudgetEndsOnOccupied(t, m, p, hs, iter, inspected, run, start);
  }

  /** A free slot at or after the pass start lengthens the run by one. */
  lemma RunBeforeExtends(t: seq<Slot>, lo: nat, j: nat)
    requires lo <= j < |t| && IsFree(t[j])
    ensures RunBefore(t, lo, j + 1) == RunBefore(t, lo, j) + 1
  {
  }

  /** Inside a pass the bound of the run does not move, so a free slot lengthens it by one. */
  lemma RunBeforeAdvances(t: seq<Slot>, m: nat, p: nat, iter: nat, inspected: nat, run: nat, start: nat)
    requires ScanState(t, m, p, iter, inspected, run, start) && IsFree(t[iter])
    requires inspected + 1 != |t| && iter + 1 != |t|
    requires run == RunBefore(t, if p <= iter then p else 0, iter)
    ensures run + 1 == RunBefore(t, if p <= iter + 1 then p else 0, iter + 1)
  {
    var lo := if p <= iter then p else 0;
    assert lo == if p <= iter + 1 then p else 0;
    RunBeforeExtends(t, lo, iter);
  }

  /** The corrected scan written as the nested loops of mem.c:51-84. */
  method FindFreeSlot(t: seq<Slot>, m: nat, hints: seq<Hint>) returns (found: Option<nat>, hs: seq<Hint>)
    requires 0 < |t| && 1 <= m && |hints| == HintSlots
    ensures ScanOutcome(found, hs) == Scan(t, m, hints)
    ensures found == CircularFirstFit(t, m, ScanStart(hints, |t|))
    ensures found.Some? ==> FreeWindow(t, found.value, m)
    ensures HintsSound(t, hints, hs)
    ensures hs == PassedRunHints(t, m, hints)
  {
    found, hs := WalkTable(t, m, hints);
  }

  /** The loops of mem_find_free_slot: skip occupied slots, count the free
      run that follows, record its length when an occupied slot ends it, and
      stop at the first run of m slots or when every slot has been passed. */
  method WalkTable(t: seq<Slot>, m: nat, hints: seq<Hint>) returns (found: Option<nat>, hs: seq<Hint>)
    requires 0 < |t| && 1 <= m && |hints| == HintSlots
    ensures ScanOutcome(found, hs) == ScanFrom(t, m, hints, ScanStart(hints, |t|), 0, 0, 0, true)
  {
    var n := |t|;
    ghost var goal := ScanFrom(t, m, hints, ScanStart(hints, n), 0, 0, 0, true);
    var iter: nat := ScanStart(hints, n);
    var inspected: nat := 0;
    var run: nat := 0;
    var start: nat := 0;
    hs := hints;
    while true
      invariant iter < n && inspected < n && |hs| == HintSlots && run == 0
      invariant ScanFrom(t, m, hs, iter, inspected, 0, start, true) == goal
      decreases n - inspected
    {
      ghost var inspected0 := inspected;
      // skip occupied slots
      while !IsFree(t[iter])
        invariant iter < n && inspected < n && |hs| == HintSlots && inspected0 <= inspected
        invariant ScanFrom(t, m, hs, iter, inspected, 0, start, true) == goal
        decreases n - inspected
      {
        inspected := inspected + 1;
        iter := Next(iter, n);
        if inspected == n {
          return None, hs;
        }
      }
      start := iter;
      // count the free run that starts here
      while IsFree(t[iter])
        invariant iter < n && inspected < n && |hs| == HintSlots && run < m
        invariant run > 0 ==> start + run == iter
        invariant run == 0 ==> start == iter
        invariant inspected0 < inspected || IsFree(t[iter])
        invariant ScanFrom(t, m, hs, iter, inspected, run, start, true) == goal
        decreases n - inspected
      {
        var wrapped := iter + 1 == n;
        iter := if wrapped then 0 else iter + 1;
        run := run + 1;
        if run == m {
          return Some(start), hs;
        }
        inspected := inspected + 1;
        if inspected == n {
          return None, hs;
        }
        if wrapped {
          // the run ends at the table end; an occupied slot 0 records it
          hs := WrapRecord(t, hs, run, start);
          run := 0;
          break;
        }
      }
      if 0 < run < HintSlots {
        hs := hs[run := At(start)];
      }
      run := 0;
    }
  }
}

=== FILE: hint_cache.dfy ===
/** The 16-entry hint cache `next_free_slots` (mem.c:116-119, mem.c:139-148).

    Entry k, for k >= 1, remembers the start of a free run of k blocks; entry 0
    remembers a single free block and is also where the scan starts. A hint
    is one-shot: using it resets it to MEM_UNASSIGNED. */
module HintCache {
  import opened MemLayout
  import opened Options

  /** One entry: MEM_UNASSIGNED, or a block index. */
  datatype Hint = Unassigned | At(index: nat)

  /** The seeded entry k of mem_create: 0, 1, then k + Seed(k - 1) - 1. */
  function Seed(k: nat): nat
  {
    if k == 0 then 0 else if k == 1 then 1 else k + Seed(k - 1) - 1
  }

  /** The whole seeded cache. */
  function SeedHints(): (hs: seq<Hint>)
    ensures |hs| == HintSlots
    ensures forall k :: 0 <= k < HintSlots ==> hs[k] == At(Seed(k))
  {
    seq(HintSlots, k requires 0 <= k => At(Seed(k)))
  }

  /** Closed form of the seeds: Seed(k) = 1 + k(k-1)/2 for k >= 1. */
  lemma {:induction false} SeedClosedForm(k: nat)
    requires k >= 1
    ensures 2 * Seed(k) == k * (k - 1) + 2
  {
    if k > 1 {
      SeedClosedForm(k - 1);
      assert (k - 1) * (k - 2) == k * (k - 1) - 2 * (k - 1);
    }
  }

  /** The seeded run of class j, [Seed(j), Seed(j) + j), ends where the seeded
      run of every larger class starts or before; class 1 starts right after
      the single block [0, 1) of class 0. So the seeded runs are consecutive
      and pairwise disjoint. */
  lemma {:induction false} SeedRunsDisjoint(j: nat, k: nat)
    requires 1 <= j < k
    ensures Seed(j) + j <= Seed(k)
    ensures Seed(k - 1) + (k - 1) == Seed(k)
    ensures Seed(0) + 1 == Seed(1)
  {
    if j < k - 1 {
      SeedRunsDisjoint(j, k - 1);
    }
  }

  /** Every seeded run of classes 1..15 lies inside a table of n blocks
      exactly when n >= 121. */
  lemma SeedsFitIff(n: nat)
    ensures (forall k :: 1 <= k < HintSlots ==> Seed(k) + k <= n) <==> n >= 121
  {
    SeedClosedForm(15);
    assert Seed(15) + 15 == 121;
    if n >= 121 {
      forall k | 1 <= k < HintSlots
        ensures Seed(k) + k <= n
      {
        if k < 15 {
          SeedRunsDisjoint(k, 15);
        }
      }
    }
  }

  /** Entry k of the cache may serve a request of m blocks: entry 0 for a
      single block, entry m for runs shorter than the cache. */
  predicate Eligible(m: nat, k: nat)
  {
    (k == 0 && m == 1) || (k == m && m < HintSlots)
  }

  datatype Taken = Taken(candidate: Option<nat>, hints: seq<Hint>)

  /** The fast path of mem_alloc (mem.c:139-148): take the lowest eligible
      assigned entry and reset it to MEM_UNASSIGNED. */
  function TakeHint(hs: seq<Hint>, m: nat): (r: Taken)
    requires |hs| == HintSlots && m >= 1
    ensures |r.hints| == HintSlots
    ensures r.candidate.None? <==> forall k :: 0 <= k < HintSlots && Eligible(m, k) ==> hs[k] == Unassigned
    ensures r.candidate.None? ==> r.hints == hs
    ensures r.candidate.Some? ==>
              exists k :: 0 <= k < HintSlots && Eligible(m, k) && hs[k] == At(r.candidate.value)
                       && r.hints == hs[k := Unassigned]
                       && forall k' :: 0 <= k' < k && Eligible(m, k') ==> hs[k'] == Unassigned
  {
    if m == 1 && hs[0].At? then
      Taken(Some(hs[0].index), hs[0 := Unassigned])
    else if m < HintSlots && hs[m].At? then
      assert Eligible(m, m);
      Taken(Some(hs[m].index), hs[m := Unassigned])
    else
      Taken(None, hs)
  }

  /** Requests of 16 blocks or more never use the cache. */
  lemma LargeRequestsSkipCache(hs: seq<Hint>, m: nat)
    requires |hs| == HintSlots && m >= HintSlots
    ensures TakeHint(hs, m) == Taken(None, hs)
  {
  }

  /** Where the scan starts: entry 0 if it is assigned and inside the table,
      else block 0 (mem.c:47-50, with the range check added). */
  function ScanStart(hs: seq<Hint>, n: nat): (p: nat)
    requires |hs| == HintSlots && n > 0
    ensures p < n
    ensures hs[0].At? && hs[0].index < n ==> p == hs[0].index
    ensures !(hs[0].At? && hs[0].index < n) ==> p == 0
  {
    if hs[0].At? && hs[0].index < n then hs[0].index else 0
  }
}

=== FILE: mem_layout.dfy ===
/** The constants, the slot record and the size arithmetic of inc/mem.h.

    A slot record is four bytes: three little-endian bytes of allocation id
    followed by one byte of run length (`count`). A record is free exactly
    when all four bytes are zero. */
module MemLayout {

  /** One unsigned 8-bit field. */
  type Byte = b: int | 0 <= b < 0x100

  /** sizeof(mem_slot_t): three id bytes and one count byte. */
  const SlotRecordSize: nat := 4
  /** MEM_TABLE_REC_UNUSED_ID: the id of a free slot, never assigned to a run. */
  const UnusedId: nat := 0
  /** MEM_MAX_SLOT_ID: ids live in [1, MaxSlotId); the counter wraps back to 1. */
  const MaxSlotId: nat := 0x0100_0000
  /** MEM_MAX_READY_NEXT_SLOTS: the number of entries of the hint cache. */
  const HintSlots: nat := 16
  /** The largest run length the 8-bit `count` field can hold. */
  const MaxCount: nat := 0xFF

  /** A number the three id bytes can hold: [0, 2^24). */
  type Id24 = x: int | 0 <= x < 0x100_0000

  /** A slot record: the three id bytes, held as the 24-bit number
      MEM_GET_SLOT_ID reads from them, and the run-length byte. */
  datatype Slot = Slot(id: Id24, count: Byte)

  /** The all-zero record written by memset. */
  const FreeSlot: Slot := Slot(0, 0)

  /** MEM_IS_FREE_SLOT: the 4-byte record reads as the integer zero. */
  predicate IsFree(s: Slot)
  {
    s == FreeSlot
  }

  /** MEM_GET_SLOT_ID: the allocation id a record carries. */
  function GetSlotId(s: Slot): nat
  {
    s.id
  }

  /** The three bytes MEM_SET_SLOT_ID stores for `id`: bits 0-7, 8-15 and
      16-23, in that order. */
  function IdBytesOf(id: nat): (b: seq<Byte>)
    ensures |b| == 3
  {
    var b0: Byte := id % 0x100;
    var b1: Byte := (id / 0x100) % 0x100;
    var b2: Byte := (id / 0x1_0000) % 0x100;
    [b0, b1, b2]
  }

  /** MEM_GET_SLOT_ID on three stored bytes: byte 0 is the low byte. */
  function ReadIdBytes(b: seq<Byte>): nat
    requires |b| == 3
  {
    (b[2] as int) * 0x1_0000 + (b[1] as int) * 0x100 + (b[0] as int)
  }

  /** MEM_SET_SLOT_ID: store the three id bytes of `id`; the record then
      holds what MEM_GET_SLOT_ID reads back from them. The count byte is not
      written, and only the low 24 bits of the id survive. */
  function SetSlotId(s: Slot, id: nat): (r: Slot)
    ensures r.count == s.count
    ensures GetSlotId(r) == id % MaxSlotId
    ensures id < MaxSlotId ==> GetSlotId(r) == id
  {
    IdBytesRoundTrip(id);
    s.(id := ReadIdBytes(IdBytesOf(id)))
  }

  /** Reading back the three bytes stored for `id` gives `id` modulo 2^24. */
  lemma IdBytesRoundTrip(id: nat)
    ensures ReadIdBytes(IdBytesOf(id)) == id % MaxSlotId
  {
    var b := IdBytesOf(id);
    var q := id / 0x100;
    var c := q / 0x100;
    assert id == q * 0x100 + b[0];
    assert q == c * 0x100 + b[1];
    assert c / 0x100 * 0x100 + c % 0x100 == c;
    assert c == id / 0x1_0000;
    assert c == c / 0x100 * 0x100 + b[2];
    assert id == c / 0x100 * MaxSlotId + ReadIdBytes(b);
    ModOfDecomposition(id, c / 0x100, ReadIdBytes(b), MaxSlotId);
  }

  /** If a = d * n + x with 0 <= x < n, then x is a mod n. */
  lemma ModOfDecomposition(a: nat, d: nat, x: nat, n: nat)
    requires 0 <= x < n && a == d * n + x
    ensures a % n == x
  {
    var r := a % n;
    var e := a / n;
    assert a == e * n + r;
    assert (d - e) * n == r - x;
    if d > e {
      MulMono(1, d - e, n);
    } else if d < e {
      MulMono(1, e - d, n);
    }
  }

  /** Slot-id round trip: every id below MEM_MAX_SLOT_ID is read back unchanged,
      whatever the record held before. It follows from the contract of
      SetSlotId; it is stated here as the named property. */
  lemma SlotIdRoundTrip(s: Slot, id: nat)
    requires id < MaxSlotId
    ensures GetSlotId(SetSlotId(s, id)) == id
    ensures SetSlotId(s, id).count == s.count
  {
  }

  /** A slot is free exactly when its id is the unused id and its count is zero;
      so a slot of a run that carries an id but a zero count is occupied. */
  lemma FreeIffIdAndCountZero(s: Slot)
    ensures IsFree(s) <==> GetSlotId(s) == UnusedId && s.count == 0
  {
  }

  /** MEM_CALC_BLOCKS for a request of `size` bytes: ceil(size / blockSize). */
  function CalcBlocks(blockSize: nat, size: nat): (k: nat)
    requires blockSize >= 1 && size >= 1
    ensures k >= 1
    ensures k * blockSize >= size
    ensures (k - 1) * blockSize < size
  {
    var q := (size - 1) / blockSize;
    assert size - 1 == q * blockSize + (size - 1) % blockSize;
    assert (q + 1) * blockSize == q * blockSize + blockSize;
    q + 1
  }

  /** MEM_CALC_ACTUAL_SIZE: the request rounded up to whole blocks. */
  function CalcActualSize(blockSize: nat, size: nat): (r: nat)
    requires blockSize >= 1 && size >= 1
    ensures r % blockSize == 0
    ensures size <= r < size + blockSize
  {
    var k := CalcBlocks(blockSize, size);
    assert (k - 1) * blockSize == k * blockSize - blockSize;
    MulMod(k, blockSize);
    k * blockSize
  }

  lemma MulMod(k: nat, b: nat)
    requires b >= 1
    ensures (k * b) % b == 0
  {
    var x := k * b;
    var q := x / b;
    assert x == q * b + x % b;
    assert (k - q) * b == x % b;
    if k - q > 0 {
      MulMono(1, k - q, b);
    }
  }

  /** MEM_CALC_BUFF_SIZE: the bytes a caller must supply for `blocks` blocks:
      per block, one slot record in the table and one block of storage. */
  function CalcBuffSize(blockSize: nat, blocks: nat): (r: nat)
    ensures r == blocks * (SlotRecordSize + blockSize)
    ensures blocks > 0 ==> r / blocks == SlotRecordSize + blockSize
  {
    MulAdd(SlotRecordSize, blockSize, blocks);
    MulDiv(SlotRecordSize + blockSize, blocks);
    blockSize * blocks + SlotRecordSize * blocks
  }

  lemma MulDiv(k: nat, b: nat)
    ensures b >= 1 ==> (k * b) / b == k
  {
    if b >= 1 {
      var x := k * b;
      var q := x / b;
      MulMod(k, b);
      assert x == q * b;
    }
  }

  /** The block-count rounding is the least k with k * blockSize >= size. */
  lemma CalcBlocksIsLeast(blockSize: nat, size: nat, k: nat)
    requires blockSize >= 1 && size >= 1
    requires k * blockSize >= size
    ensures CalcBlocks(blockSize, size) <= k
  {
    var c := CalcBlocks(blockSize, size);
    if k < c {
      assert k <= c - 1;
      MulMono(k, c - 1, blockSize);
    }
  }

  lemma MulAdd(a: nat, b: nat, c: nat)
    ensures a * c + b * c == (a + b) * c
  {
  }

  lemma MulMono(a: nat, b: nat, c: nat)
    requires a <= b
    ensures a * c <= b * c
  {
  }
}

=== FILE: options.dfy ===
/** The optional value used wherever the allocator can fail: a NULL pointer,
    MEM_ERROR from the scan, or an unassigned hint. */
module Options {

  datatype Option<+T> = None | Some(value: T)

  /** The first of two options that is present, else the second. */
  function Either<T>(a: Option<T>, b: Option<T>): Option<T>
  {
    if a.Some? then a else b
  }
}

=== FILE: scenarios.dfy ===
/** Concrete runs of the allocator on a heap of four 16-byte blocks placed at
    any address `base`: its storage starts 16 bytes in, after four 4-byte
    records, so block i lives at base + 16 + 16 * i. */
module Scenarios {
  import opened MemLayout
  import opened Options
  import opened SlotTable
  import opened HintCache
  import opened FreeRunSearch
  import opened Allocator

  /** A fresh heap of four 16-byte blocks. */
  function Fresh(base: nat): (h: Heap)
    ensures Valid(h) && h.start == base + 16 && h.blocksNum == 4 && h.blockLength == 16
    ensures forall i :: 0 <= i < 4 ==> IsFree(h.table[i])
    ensures h.hints == SeedHints() && h.freeSlotsNum == 4
  {
    Create(base, 16, 4)
  }

  /** A 20-byte request on the fresh heap takes two blocks from the seeded
      hint of class 2, block 2, not block 0; afterwards 32 bytes are free,
      and freeing the run brings the free size back to 64. */
  lemma FreshTwoBlockRequest(base: nat) returns (r: AllocResult)
    ensures r == Alloc(Fresh(base), 20) && Valid(r.heap)
    ensures r.addr == Some(base + 48)
    ensures GetFreeSize(r.heap) == 32
    ensures GetFreeSize(Free(r.heap, base + 48)) == 64
    ensures r.heap.blocksNum == 4 && r.heap.blockLength == 16 && r.heap.start == base + 16
    ensures forall i :: 0 <= i < 4 ==> (IsFree(r.heap.table[i]) <==> i < 2)
    ensures r.heap.table[2].count == 2 && r.heap.hints[0] == At(0)
  {
    r := TwoFromHint(Fresh(base));
  }

  lemma TwoFromHint(h: Heap) returns (r: AllocResult)
    requires Valid(h) && h.blocksNum == 4 && h.blockLength == 16
    requires forall i :: 0 <= i < 4 ==> IsFree(h.table[i])
    requires h.hints == SeedHints() && h.freeSlotsNum == 4
    ensures r == Alloc(h, 20) && Valid(r.heap)
    ensures r.addr == Some(h.start + 32)
    ensures GetFreeSize(r.heap) == 32
    ensures GetFreeSize(Free(r.heap, h.start + 32)) == 64
    ensures r.heap.blocksNum == 4 && r.heap.blockLength == 16 && r.heap.start == h.start
    ensures forall i :: 0 <= i < 4 ==> (IsFree(r.heap.table[i]) <==> i < 2)
    ensures r.heap.table[2].count == 2 && r.heap.hints[0] == At(0)
  {
    assert CalcBlocks(16, 20) == 2;
    assert h.hints[2] == At(2);
    var taken := TakeHint(h.hints, 2);
    assert taken.candidate == Some(2);
    assert FreeWindow(h.table, 2, 2);
    r := Alloc(h, 20);
    assert r.addr == Some(h.start + 32);
    AllocKeepsValid(h, 20);
    assert IndexOf(r.heap, h.start + 32) == 2;
    assert r.heap.table[2].count == 2;
    assert !IsFree(r.heap.table[3]) by {
      assert GetSlotId(r.heap.table[3]) == h.slotId;
    }
  }

  /** On the fresh heap, a 48-byte (three-block) request finds the seeded
      hint of class 3 pointing at block 4, past the table; the hint is
      rejected and the scan from block 0 serves the request at block 0. */
  lemma FreshThreeBlockRequest(base: nat)
    ensures Alloc(Fresh(base), 48).addr == Some(base + 16)
  {
    var h := Fresh(base);
    assert CalcBlocks(16, 48) == 3;
    assert Seed(3) == 4;
    var taken := TakeHint(h.hints, 3);
    assert taken.candidate == Some(4);
    assert !FreeWindow(h.table, 4, 3);
    assert taken.hints[0] == At(0);
    var p := ScanStart(taken.hints, 4);
    assert p == 0;
    assert FreeWindow(h.table, 0, 3);
    assert FirstFit(h.table, 3, 0, 4) == Some(0);
  }

  /** The first two one-block requests on the fresh heap get blocks 0 and 1
      from the seeded hints of classes 0 and 1, leaving both entries
      unassigned and blocks 2 and 3 free. */
  lemma FirstTwoSingles(base: nat) returns (r1: AllocResult, r2: AllocResult)
    ensures r1 == Alloc(Fresh(base), 16) && r1.addr == Some(base + 16) && Shaped(r1.heap)
    ensures r2 == Alloc(r1.heap, 16) && r2.addr == Some(base + 32)
    ensures Shaped(r2.heap) && r2.heap.blocksNum == 4 && r2.heap.blockLength == 16 && r2.heap.start == base + 16
    ensures r2.heap.freeSlotsNum == 2
    ensures forall i :: 0 <= i < 4 ==> (IsFree(r2.heap.table[i]) <==> i >= 2)
    ensures r2.heap.hints[0] == Unassigned && r2.heap.hints[1] == Unassigned
  {
    r1, r2 := FirstTwo(Fresh(base));
  }

  lemma FirstTwo(h: Heap) returns (r1: AllocResult, r2: AllocResult)
    requires Shaped(h) && h.blocksNum == 4 && h.blockLength == 16 && h.freeSlotsNum == 4
    requires forall i :: 0 <= i < 4 ==> IsFree(h.table[i])
    requires h.hints[0] == At(0) && h.hints[1] == At(1)
    ensures r1 == Alloc(h, 16) && r1.addr == Some(h.start) && Shaped(r1.heap)
    ensures r2 == Alloc(r1.heap, 16) && r2.addr == Some(h.start + 16)
    ensures Shaped(r2.heap) && r2.heap.blocksNum == 4 && r2.heap.blockLength == 16 && r2.heap.start == h.start
    ensures r2.heap.freeSlotsNum == 2
    ensures forall i :: 0 <= i < 4 ==> (IsFree(r2.heap.table[i]) <==> i >= 2)
    ensures r2.heap.hints[0] == Unassigned && r2.heap.hints[1] == Unassigned
  {
    r1 := SingleFromHint(h, 0);
    r2 := SingleFromHint(r1.heap, 1);
  }

  /** From that state, two more one-block requests are served by scanning,
      at blocks 2 and 3, and a fifth request fails with the heap unchanged. */
  lemma LastTwoSinglesThenFull(h: Heap) returns (r3: AllocResult, r4: AllocResult)
    requires Shaped(h) && h.blocksNum == 4 && h.blockLength == 16 && h.freeSlotsNum == 2
    requires forall i :: 0 <= i < 4 ==> (IsFree(h.table[i]) <==> i >= 2)
    requires h.hints[0] == Unassigned && h.hints[1] == Unassigned
    ensures r3 == Alloc(h, 16) && r3.addr == Some(h.start + 32) && Shaped(r3.heap)
    ensures r4 == Alloc(r3.heap, 16) && r4.addr == Some(h.start + 48) && Shaped(r4.heap)
    ensures Alloc(r4.heap, 16) == AllocResult(r4.heap, None)
  {
    r3 := SingleFromScan(h, 2);
    r4 := SingleFromScan(r3.heap, 3);
    assert CalcBlocks(16, 16) == 1;
  }

  /** A free window the scan cannot see. A 16-byte request on the fresh heap
      takes block 0; freeing the free block 2 records it as hint 0; a 48-byte
      request then finds hint 3 (block 4) unusable and scans from block 2. The
      run 2..3 ends at the table end, block 0 is taken, and the run from
      block 1 is cut off by the budget, so the request fails although blocks
      1..3 are free. */
  lemma StraddledWindowMissed(base: nat) returns (r: AllocResult, h: Heap)
    ensures r == Alloc(Fresh(base), 16) && Valid(r.heap)
    ensures h == Free(r.heap, base + 48)
    ensures FreeWindow(h.table, 1, 3)
    ensures Alloc(h, 48).addr == None
  {
    var f := Fresh(base);
    assert f.hints[3] == At(Seed(3)) && Seed(3) == 4;
    r := SingleFromHint(f, 0);
    AllocKeepsValid(f, 16);
    h := FreeOfFreeBlock(r.heap);
    ScanMissesStraddledWindow(h);
  }

  /** Freeing the free block 2 of that heap: nothing is released, but the
      block is recorded as hint 0. */
  lemma FreeOfFreeBlock(g: Heap) returns (h: Heap)
    requires Valid(g) && g.blocksNum == 4 && g.blockLength == 16 && g.freeSlotsNum == 3
    requires forall i :: 0 <= i < 4 ==> (IsFree(g.table[i]) <==> i >= 1)
    requires g.hints[3] == At(4)
    ensures h == Free(g, g.start + 32)
    ensures Shaped(h) && h.blocksNum == 4 && h.blockLength == 16 && h.freeSlotsNum == 3
    ensures forall i :: 0 <= i < 4 ==> (IsFree(h.table[i]) <==> i >= 1)
    ensures h.hints[0] == At(2) && h.hints[3] == At(4)
  {
    h := Free(g, g.start + 32);
    assert IndexOf(g, g.start + 32) == 2;
    assert g.table[2].count == 0;
  }

  /** The last request of that run, on any heap in that state. */
  lemma ScanMissesStraddledWindow(h: Heap)
    requires Shaped(h) && h.blocksNum == 4 && h.blockLength == 16 && h.freeSlotsNum == 3
    requires forall i :: 0 <= i < 4 ==> (IsFree(h.table[i]) <==> i >= 1)
    requires h.hints[0] == At(2) && h.hints[3] == At(4)
    ensures FreeWindow(h.table, 1, 3)
    ensures Alloc(h, 48).addr == None
  {
    assert CalcBlocks(16, 48) == 3;
    var taken := TakeHint(h.hints, 3);
    assert taken.candidate == Some(4);
    assert taken.hints[0] == At(2);
    assert ScanStart(taken.hints, 4) == 2;
    assert FirstFit(h.table, 3, 2, 4) == None;
    assert FirstFit(h.table, 3, 0, 2) == None;
  }

  /** One 16-byte request served from hint entry k (0 or 1) at block k. */
  lemma SingleFromHint(h: Heap, k: nat) returns (r: AllocResult)
    requires Shaped(h) && h.blocksNum == 4 && h.blockLength == 16
    requires k <= 1 && h.freeSlotsNum == 4 - k
    requires forall i :: 0 <= i < 4 ==> (IsFree(h.table[i]) <==> i >= k)
    requires h.hints[1] == At(1) && (k == 0 ==> h.hints[0] == At(0)) && (k == 1 ==> h.hints[0] == Unassigned)
    ensures r == Alloc(h, 16) && r.addr == Some(h.start + 16 * k)
    ensures Shaped(r.heap) && r.heap.blocksNum == 4 && r.heap.blockLength == 16 && r.heap.start == h.start
    ensures r.heap.freeSlotsNum == 3 - k
    ensures forall i :: 0 <= i < 4 ==> (IsFree(r.heap.table[i]) <==> i > k)
    ensures r.heap.hints[0] == Unassigned
    ensures k == 0 ==> r.heap.hints[1] == At(1)
    ensures forall j :: 2 <= j < HintSlots ==> r.heap.hints[j] == h.hints[j]
  {
    r := Alloc(h, 16);
    assert CalcBlocks(16, 16) == 1;
    var taken := TakeHint(h.hints, 1);
    assert taken.candidate == Some(k);
    assert FreeWindow(h.table, k, 1);
    assert IndexOf(h, h.start + 16 * k) == k;
    assert !IsFree(r.heap.table[k]) by {
      assert r.heap.table[k].count == 1;
    }
  }

  /** One 16-byte request with both single-block hints used up: the scan from
      block 0 passes the occupied blocks [0, k) and takes block k. */
  lemma SingleFromScan(h: Heap, k: nat) returns (r: AllocResult)
    requires Shaped(h) && h.blocksNum == 4 && h.blockLength == 16
    requires 2 <= k <= 3 && h.freeSlotsNum == 4 - k
    requires forall i :: 0 <= i < 4 ==> (IsFree(h.table[i]) <==> i >= k)
    requires h.hints[0] == Unassigned && h.hints[1] == Unassigned
    ensures r == Alloc(h, 16) && r.addr == Some(h.start + 16 * k)
    ensures Shaped(r.heap) && r.heap.blocksNum == 4 && r.heap.blockLength == 16 && r.heap.start == h.start
    ensures r.heap.freeSlotsNum == 3 - k
    ensures forall i :: 0 <= i < 4 ==> (IsFree(r.heap.table[i]) <==> i > k)
    ensures r.heap.hints[0] == Unassigned && r.heap.hints[1] == Unassigned
  {
    r := Alloc(h, 16);
    assert CalcBlocks(16, 16) == 1;
    var taken := TakeHint(h.hints, 1);
    assert taken == Taken(None, h.hints);
    assert ScanStart(h.hints, 4) == 0;
    FirstFitSkipOccupied(h.table, k);
    assert FirstFit(h.table, 1, 0, 4) == Some(k);
    assert IndexOf(h, h.start + 16 * k) == k;
    assert !IsFree(r.heap.table[k]) by {
      assert r.heap.table[k].count == 1;
    }
    ScanKeepsSingleHints(h.table, h.hints, k);
  }

  /** On a table whose blocks [0, k) are occupied and [k, 4) free, the first
      one-block window is block k. */
  lemma FirstFitSkipOccupied(t: seq<Slot>, k: nat)
    requires |t| == 4 && k < 4
    requires forall i :: 0 <= i < 4 ==> (IsFree(t[i]) <==> i >= k)
    ensures FirstFit(t, 1, 0, 4) == Some(k)
  {
    assert FreeWindow(t, k, 1);
    assert forall s :: 0 <= s < k ==> !FreeWindow(t, s, 1) by {
      forall s | 0 <= s < k
        ensures !FreeWindow(t, s, 1)
      {
        assert !IsFree(t[s]);
      }
    }
  }

  /** A one-block scan over such a table meets no free run before block k,
      so it records no hint. */
  lemma ScanKeepsSingleHints(t: seq<Slot>, hs: seq<Hint>, k: nat)
    requires |t| == 4 && 1 <= k < 4 && |hs| == HintSlots && hs[0] == Unassigned
    requires forall i :: 0 <= i < 4 ==> (IsFree(t[i]) <==> i >= k)
    ensures Scan(t, 1, hs).hints == hs
  {
    assert ScanStart(hs, 4) == 0;
    assert !IsFree(t[0]);
    assert Scan(t, 1, hs) == ScanFrom(t, 1, hs, 1, 1, 0, 0, true);
    if k == 1 {
      assert IsFree(t[1]);
    } else {
      assert !IsFree(t[1]);
      assert ScanFrom(t, 1, hs, 1, 1, 0, 0, true) == ScanFrom(t, 1, hs, 2, 2, 0, 0, true);
      if k == 3 {
        assert !IsFree(t[2]);
        assert ScanFrom(t, 1, hs, 2, 2, 0, 0, true) == ScanFrom(t, 1, hs, 3, 3, 0, 0, true);
      }
    }
  }
}

=== FILE: slot_table.dfy ===
/** The slot table: one record per block, the runs it encodes, and the two
    writes alloc and free make to it (mem.c:154-167 and mem.c:183-187).

    A well-formed table is a sequence of free slots and runs. A run starts at
    a head slot whose `count` is its length; every slot of the run carries the
    head's nonzero id and every slot after the head has count zero. */
module SlotTable {
  import opened MemLayout

  /** Slots [s, s + m) lie inside the table and are all free. */
  predicate FreeWindow(t: seq<Slot>, s: nat, m: nat)
  {
    s + m <= |t| && forall k :: s <= k < s + m ==> IsFree(t[k])
  }

  /** The number of free slots of the table. */
  function CountFree(t: seq<Slot>): (c: nat)
    ensures c <= |t|
  {
    if |t| == 0 then 0 else (if IsFree(t[0]) then 1 else 0) + CountFree(t[1..])
  }

  /** The run headed at `i`, if any, is in range, tagged with a nonzero id,
      and its later slots carry the same id with count zero. */
  ghost predicate RunOk(t: seq<Slot>, i: nat)
    requires i < |t|
  {
    t[i].count > 0 ==>
      && i + t[i].count <= |t|
      && GetSlotId(t[i]) != UnusedId
      && forall j :: i < j < i + t[i].count ==> t[j].count == 0 && GetSlotId(t[j]) == GetSlotId(t[i])
  }

  /** Slot `j` is a later slot of the run headed at `i`. */
  ghost predicate InRunOf(t: seq<Slot>, i: nat, j: nat)
  {
    i < j < |t| && t[i].count > 0 && j < i + t[i].count
  }

  /** Slot `j` is occupied but heads no run. */
  ghost predicate TailSlot(t: seq<Slot>, j: nat)
    requires j < |t|
  {
    t[j].count == 0 && !IsFree(t[j])
  }

  /** Every run is in range and well tagged, and every occupied slot that is
      not a head lies inside some run. */
  ghost predicate WellFormed(t: seq<Slot>)
  {
    && (forall i :: 0 <= i < |t| ==> RunOk(t, i))
    && (forall j :: 0 <= j < |t| && TailSlot(t, j) ==> exists i: nat :: InRunOf(t, i, j))
  }

  /** The alloc commit: write the run length into the head, then tag the `m`
      slots from `s` with `id` (mem.c:158-164). */
  function Commit(t: seq<Slot>, s: nat, m: nat, id: nat): (t': seq<Slot>)
    requires 1 <= m <= MaxCount && s + m <= |t|
    ensures |t'| == |t|
    ensures forall j :: 0 <= j < |t| && !(s <= j < s + m) ==> t'[j] == t[j]
    ensures t'[s].count == m
    ensures forall j :: s < j < s + m ==> t'[j].count == t[j].count
    ensures forall j :: s <= j < s + m ==> GetSlotId(t'[j]) == id % MaxSlotId
    ensures id < MaxSlotId ==> forall j :: s <= j < s + m ==> GetSlotId(t'[j]) == id
  {
    var t1 := t[s := t[s].(count := m)];
    seq(|t|, j requires 0 <= j < |t| => if s <= j < s + m then SetSlotId(t1[j], id) else t1[j])
  }

  /** The free write: zero the `count` slots from the head `h` (mem.c:183-187). */
  function Release(t: seq<Slot>, h: nat): (t': seq<Slot>)
    requires h < |t| && h + t[h].count <= |t|
    ensures |t'| == |t|
    ensures forall j :: 0 <= j < |t| ==> t'[j] == if h <= j < h + t[h].count then FreeSlot else t[j]
  {
    seq(|t|, j requires 0 <= j < |t| => if h <= j < h + t[h].count then FreeSlot else t[j])
  }

  lemma {:induction false} CountFreeConcat(a: seq<Slot>, b: seq<Slot>)
    ensures CountFree(a + b) == CountFree(a) + CountFree(b)
  {
    if |a| > 0 {
      assert (a + b)[1..] == a[1..] + b;
      CountFreeConcat(a[1..], b);
    } else {
      assert a + b == b;
    }
  }

  lemma {:induction false} CountFreeAllFree(t: seq<Slot>, s: nat, e: nat)
    requires s <= e <= |t|
    requires forall k :: s <= k < e ==> IsFree(t[k])
    ensures CountFree(t[s..e]) == e - s
    decreases e - s
  {
    if s < e {
      assert t[s..e][1..] == t[s + 1..e];
      CountFreeAllFree(t, s + 1, e);
    }
  }

  lemma {:induction false} CountFreeNoneFree(t: seq<Slot>, s: nat, e: nat)
    requires s <= e <= |t|
    requires forall k :: s <= k < e ==> !IsFree(t[k])
    ensures CountFree(t[s..e]) == 0
    decreases e - s
  {
    if s < e {
      assert t[s..e][1..] == t[s + 1..e];
      CountFreeNoneFree(t, s + 1, e);
    }
  }

  /** Changing only the slots [s, e) changes the free count only by what
      changed inside [s, e). */
  lemma CountFreeRange(t: seq<Slot>, t': seq<Slot>, s: nat, e: nat)
    requires |t| == |t'| && s <= e <= |t|
    requires forall j :: 0 <= j < |t| && !(s <= j < e) ==> t'[j] == t[j]
    ensures CountFree(t') + CountFree(t[s..e]) == CountFree(t) + CountFree(t'[s..e])
  {
    SplitThree(t, s, e);
    SplitThree(t', s, e);
    assert t'[..s] == t[..s];
    assert t'[e..] == t[e..];
    CountFreeConcat(t[..s] + t[s..e], t[e..]);
    CountFreeConcat(t[..s], t[s..e]);
    CountFreeConcat(t'[..s] + t'[s..e], t'[e..]);
    CountFreeConcat(t'[..s], t'[s..e]);
  }

  lemma SplitThree(u: seq<Slot>, s: nat, e: nat)
    requires s <= e <= |u|
    ensures u == u[..s] + u[s..e] + u[e..]
  {
  }

  /** Two distinct runs of a well-formed table do not overlap. */
  lemma RunsDisjoint(t: seq<Slot>, i: nat, k: nat)
    requires WellFormed(t)
    requires i < k < |t| && t[i].count > 0 && t[k].count > 0
    ensures i + t[i].count <= k
  {
    assert RunOk(t, i);
  }

  /** Slot `j` belongs to the run headed at `i` (the head included). */
  ghost predicate InRun(t: seq<Slot>, i: nat, j: nat)
  {
    i <= j < |t| && t[i].count > 0 && j < i + t[i].count
  }

  /** Every occupied slot of a well-formed table belongs to exactly one run. */
  lemma OccupiedInOneRun(t: seq<Slot>, j: nat)
    requires WellFormed(t) && j < |t| && !IsFree(t[j])
    ensures exists i: nat :: InRun(t, i, j)
    ensures forall i: nat, i': nat :: InRun(t, i, j) && InRun(t, i', j) ==> i == i'
  {
    if t[j].count == 0 {
      assert TailSlot(t, j);
      var i: nat :| InRunOf(t, i, j);
      assert InRun(t, i, j);
    } else {
      assert InRun(t, j, j);
    }
    forall i: nat, i': nat | InRun(t, i, j) && InRun(t, i', j)
      ensures i == i'
    {
      if i < i' {
        RunsDisjoint(t, i, i');
      } else if i' < i {
        RunsDisjoint(t, i', i);
      }
    }
  }

  /** Committing a run over a free window takes exactly `m` slots off the free
      count, and keeps the table well formed. */
  lemma CommitKeepsWellFormed(t: seq<Slot>, s: nat, m: nat, id: nat)
    requires WellFormed(t) && FreeWindow(t, s, m)
    requires 1 <= m <= MaxCount && 1 <= id < MaxSlotId
    ensures WellFormed(Commit(t, s, m, id))
    ensures CountFree(Commit(t, s, m, id)) == CountFree(t) - m
  {
    CommitRunsOk(t, s, m, id);
    CommitCovered(t, s, m, id);
    CommitCount(t, s, m, id);
  }

  lemma CommitRunsOk(t: seq<Slot>, s: nat, m: nat, id: nat)
    requires WellFormed(t) && FreeWindow(t, s, m)
    requires 1 <= m <= MaxCount && 1 <= id < MaxSlotId
    ensures forall i :: 0 <= i < |t| ==> RunOk(Commit(t, s, m, id), i)
  {
    var t' := Commit(t, s, m, id);
    forall i | 0 <= i < |t'|
      ensures RunOk(t', i)
    {
      if i == s {
        forall j | s < j < s + m
          ensures t'[j].count == 0 && GetSlotId(t'[j]) == GetSlotId(t'[s])
        {
          assert IsFree(t[j]);
        }
      } else if s < i < s + m {
        assert IsFree(t[i]);
      } else if t'[i].count > 0 {
        assert RunOk(t, i);
        forall j | i < j < i + t[i].count
          ensures t'[j] == t[j]
        {
          assert !IsFree(t[j]);
        }
      }
    }
  }

  lemma CommitCovered(t: seq<Slot>, s: nat, m: nat, id: nat)
    requires WellFormed(t) && FreeWindow(t, s, m)
    requires 1 <= m <= MaxCount && 1 <= id < MaxSlotId
    ensures forall j :: 0 <= j < |t| && TailSlot(Commit(t, s, m, id), j)
              ==> exists i: nat :: InRunOf(Commit(t, s, m, id), i, j)
  {
    var t' := Commit(t, s, m, id);
    forall j | 0 <= j < |t'| && TailSlot(t', j)
      ensures exists i: nat :: InRunOf(t', i, j)
    {
      if s < j < s + m {
        assert InRunOf(t', s, j);
      } else {
        assert t'[j] == t[j] && TailSlot(t, j);
        var i: nat :| InRunOf(t, i, j);
        assert !IsFree(t[i]);
        assert InRunOf(t', i, j);
      }
    }
  }

  lemma CommitCount(t: seq<Slot>, s: nat, m: nat, id: nat)
    requires FreeWindow(t, s, m)
    requires 1 <= m <= MaxCount && 1 <= id < MaxSlotId
    ensures CountFree(Commit(t, s, m, id)) == CountFree(t) - m
  {
    var t' := Commit(t, s, m, id);
    forall k | s <= k < s + m
      ensures !IsFree(t'[k])
    {
      assert GetSlotId(t'[k]) == id;
    }
    CountFreeFill(t', t, s, s + m);
  }

  /** Releasing the run headed at `h` returns exactly its `count` slots to
      the free count, and keeps the table well formed. */
  lemma ReleaseKeepsWellFormed(t: seq<Slot>, h: nat)
    requires WellFormed(t) && h < |t|
    ensures h + t[h].count <= |t|
    ensures WellFormed(Release(t, h))
    ensures CountFree(Release(t, h)) == CountFree(t) + t[h].count
  {
    assert RunOk(t, h);
    if t[h].count > 0 {
      ReleaseRunsOk(t, h);
      ReleaseCovered(t, h);
      forall k | h <= k < h + t[h].count
        ensures !IsFree(t[k])
      {
        assert GetSlotId(t[k]) != 0;
      }
      ReleaseCount(t, h);
    } else {
      assert Release(t, h) == t;
    }
  }

  lemma ReleaseRunsOk(t: seq<Slot>, h: nat)
    requires WellFormed(t) && h < |t| && t[h].count > 0
    requires h + t[h].count <= |t|
    ensures forall i :: 0 <= i < |t| ==> RunOk(Release(t, h), i)
  {
    var c := t[h].count;
    var t' := Release(t, h);
    forall i | 0 <= i < |t'|
      ensures RunOk(t', i)
    {
      if t'[i].count > 0 {
        assert RunOk(t, i);
        if i < h {
          RunsDisjoint(t, i, h);
        } else {
          RunsDisjoint(t, h, i);
        }
      }
    }
  }

  lemma ReleaseCovered(t: seq<Slot>, h: nat)
    requires WellFormed(t) && h < |t| && t[h].count > 0
    requires h + t[h].count <= |t|
    ensures forall j :: 0 <= j < |t| && TailSlot(Release(t, h), j)
              ==> exists i: nat :: InRunOf(Release(t, h), i, j)
  {
    var t' := Release(t, h);
    forall j | 0 <= j < |t'| && TailSlot(t', j)
      ensures exists i: nat :: InRunOf(t', i, j)
    {
      assert TailSlot(t, j);
      var i: nat :| InRunOf(t, i, j);
      if i < h {
        RunsDisjoint(t, i, h);
      } else if h < i {
        RunsDisjoint(t, h, i);
      }
      assert InRunOf(t', i, j);
    }
  }

  lemma ReleaseCount(t: seq<Slot>, h: nat)
    requires h < |t| && h + t[h].count <= |t|
    requires forall k :: h <= k < h + t[h].count ==> !IsFree(t[k])
    ensures CountFree(Release(t, h)) == CountFree(t) + t[h].count
  {
    CountFreeFill(t, Release(t, h), h, h + t[h].count);
  }

  /** Turning the occupied slots [s, e) free, and nothing else, adds e - s
      to the free count. */
  lemma CountFreeFill(t: seq<Slot>, t': seq<Slot>, s: nat, e: nat)
    requires |t| == |t'| && s <= e <= |t|
    requires forall j :: 0 <= j < |t| && !(s <= j < e) ==> t'[j] == t[j]
    requires forall k :: s <= k < e ==> !IsFree(t[k]) && IsFree(t'[k])
    ensures CountFree(t') == CountFree(t) + (e - s)
  {
    CountFreeNoneFree(t, s, e);
    CountFreeAllFree(t', s, e);
    CountFreeRange(t, t', s, e);
  }
}
